=== FILE: README.md ===
# fs_events_view core in Dafny

A model of the core of `fs_events_view`, a terminal viewer for FreeSWITCH
ESL event logs stored as one JSON object per line. The model covers these
parts:

- **Normalisation (`Events`, event.go).** `NewEvent` turns one decoded JSON
  object (a `map[string]string`, here a `Record`) into an `Event`. It takes
  the name from `Event-Subclass` or else `Event-Name`. It parses
  `Event-Sequence` and `Event-Date-Timestamp` with `strconv.ParseInt`. It
  takes the body from `_body`. It builds a header block of `Key: value`
  lines with the keys in ascending byte order and the values trimmed, where
  an embedded newline becomes newline+tab. The block skips the suppressed
  headers, `Content-Length` and `_body`.
- **Decoding (`Decoding`, parse.go).** `decode` makes one `NewEvent` per
  decoded object. It is all-or-nothing on a decoder error. It fills the
  package-level `headers` set, which supplies the filter field's
  suggestions.
- **Rendering (`Render`, event.go).** `Event.FormatRE` is the colour-tagged
  text shown for the selected event:
  - the header is scanned line by line. A line the filter matches is shown
    with the match emphasised. A tab-indented continuation line is shown
    verbatim. Any other line is split at its first `": "`, and its value is
    tagged numeric when `reNumbers` matches;
  - then, if there is a body, a `Content-Length:` pseudo-header and the
    body (highlighted too when it matches).
- **Viewer state (`Viewer`, app.go).** The pure logic of the `App`:
  - building the hide set from the command line;
  - `fillList`, which compiles the filter as `(?mi)` + text, lists the
    events that are not hidden and match, and sets the list title;
  - `hideEvent` and `listReset`;
  - the `params:` line that `Run` prints on exit.
- **Supporting modules:**
  - `Text`: Go's `strings.TrimSpace` over ASCII white space, the newline
    replacer, `bytes.Cut`, and `bufio.ScanLines`;
  - `Numbers`: `strconv.ParseInt(s, 10, 64)` with Go's error values and
    clamping, `strconv.Itoa`, and the `reNumbers` pattern
    `^\s*\d+\.*\d*\s*$`;
  - `Order`: byte-wise string order and sorting;
  - `Matching`: the regexp as seen through `FindIndex` and `MatchString`,
    and `Event.ContainsRE`.

A Dafny `char` stands for one Go byte throughout, so `len(s)` is `|s|` and
byte order is `char` order. The `ignoreHeaders` global is a parameter
`ignore`. Its start-up value is `Events.IgnoreHeaders`; the "all headers"
mode of main.go sets it to the empty set. A compiled regexp is a function
`Finder` from a text to the span of its leftmost match. The colour tags
produced by `color()` are an opaque `Palette`.

### Behaviour worth knowing

1. event.go builds the header block from every key except `_body`,
   `Content-Length` and the suppressed ones, so `Event-Name` and
   `Event-Subclass` stay in the header block even though they also give the
   name. `Events.NameKeysStayInHeader` states this.
2. event.go tests only that `Event-Subclass` is present, so a present but
   empty `Event-Subclass` still becomes the name (`Events.NewEvent`).
3. `FormatRE` in event.go writes no newline between the last header line and
   the `Content-Length:` pseudo-header, so both share one display line.
   `Render.ContentLengthSharesLastLine` states this. The pseudo-header has
   no space after the colon.
4. When the filter does not compile, `fillList` in app.go leaves `a.re`
   nil. As a result no filtering happens at all: every event that is not
   hidden is listed (`Viewer.NoMatcherListsAllVisible`). It is not the case
   that nothing matches.

## Model

| member | source | states |
|---|---|---|
| Events.NewEvent | event.go:27-83 | name from `Event-Subclass` when the key is present, else `Event-Name` (empty if absent); sequence is `ParseInt`'s value, inside int64 even on error; timestamp present iff `ParseInt` succeeds; body is `_body` or empty; header is the serialisation of the surviving keys in ascending order |
| Events.HeaderKeys | event.go:50-59 | a key survives iff it is in the record and is not `_body`, not `Content-Length` and not suppressed |
| Events.AfterNewEvent | event.go:44-47 | the map after `NewEvent` has lost exactly `_body` and keeps every other value |
| Events.Serialize | event.go:63-74 | the block is empty iff there are no keys, and otherwise ends in a newline |
| Events.HeaderEmptyIff | event.go:49-80 | an event's header block is empty exactly when no key survives, and otherwise ends with `'\n'` |
| Events.HeaderOrderIndependent | event.go:50-61 | any strictly ascending listing of the surviving keys yields the same header, so Go's random map order does not matter |
| Events.SequenceRoundTrip | event.go:35 | a sequence number written in decimal (up to the int64 maximum) is read back unchanged |
| Events.MalformedSequenceIsZero | event.go:35 | a missing or malformed `Event-Sequence` of at most twenty bytes gives sequence number 0 |
| Events.OverflowSequenceClampedTimestampDropped | event.go:35-41 | an overflowing decimal gives the clamped int64 maximum as sequence, while the same text as timestamp leaves the zero time |
| Events.HeaderBlockRoundTrip | event.go:63-74 | when no surviving key contains a newline or `": "` or starts with a tab, reading the header block back line by line (newline+tab continues a value) recovers exactly the surviving keys in ascending order, each with its trimmed value |
| Events.ParseSerialize | event.go:66-74 | for keys without `": "`, newline or leading tab, parsing a serialised block gives back its entries |
| Events.NameKeysStayInHeader | event.go:29-32 | `Event-Name` and `Event-Subclass`, when present and not suppressed, are also entries of the header block with their trimmed values |
| Events.DefaultSuppression | event.go:89-101 | with the start-up suppression set no header-block entry is a suppressed header such as `Core-UUID` or `Event-Date-Timestamp`, while the timestamp is still read |
| Text.TrimSpace | event.go:71 | the result is the input with its maximal leading and trailing white-space runs removed; it is empty iff the input is all white space |
| Text.TrimSpaceIdempotent | event.go:71 | trimming twice equals trimming once |
| Text.ReplaceNewLine | event.go:86 | every newline in the result is followed by a tab; text without newlines is unchanged |
| Text.RestoreReplaceNewLine | event.go:86 | removing the tab after each newline undoes the replacer |
| Text.Find | event.go:175 | the leftmost occurrence of a pattern, or none exactly when there is no occurrence |
| Text.CutAt | event.go:175 | when found, the text is `before + sep + after` with no earlier occurrence; otherwise `before` is the whole text |
| Text.ScanLines | event.go:150-154 | scanned lines contain no newline |
| Text.ScanLinesJoin | event.go:150-160 | scanning newline-joined plain lines whose last one is non-empty gives back the lines |
| Text.JoinScanLines | event.go:150-160 | for text without carriage returns, joining the scanned lines with newlines rebuilds the text without a final newline |
| Order.SortedKeys | event.go:61 | the result is strictly ascending and holds exactly the set's elements |
| Order.SortedUnique | event.go:61 | two strictly ascending listings of the same elements are equal |
| Numbers.ParseInt | event.go:35-41 | `Ok` iff the text is an optionally signed decimal within int64, with its value; a syntax error, with value 0, iff the text is not such a decimal and its leading digit run (after one sign) does not exceed 2^64-1; a range error gives the bound of the sign; the value is always within int64 |
| Numbers.ShortMalformedIsSyntaxError | event.go:35-41 | malformed text of at most twenty bytes is always a syntax error with value 0 |
| Numbers.ParseIntOverflowBeforeJunk | event.go:35-41 | twenty nines followed by `x` is a range error clamped to the int64 maximum, not a syntax error |
| Numbers.FormatNat | event.go:199 | `Itoa` of a length is a non-empty run of digits without a leading zero whose value is the length |
| Numbers.ParseFormatNat | event.go:199 | parsing a formatted length gives it back with status `Ok` |
| Numbers.IsNumericIff | event.go:118 | the numeric test holds iff the value is spaces, digits (at least one), dots, digits, spaces |
| Matching.ContainsRE | event.go:103-106 | an event matches iff its header block or its body does |
| Matching.SubstringFinder | event.go:103-106 | a literal filter reports a match iff the pattern occurs, and the span is its leftmost occurrence |
| Matching.ContainsSubstring | event.go:103-106 | with a literal filter an event matches iff the text occurs in the header or in the body |
| Matching.NoMatchAcrossHeaderAndBody | event.go:103-106 | a literal pattern that occurs neither in the header block nor in the body does not match, whatever the two give when read as one text |
| Matching.SeamIsNotSearched | event.go:103-106 | there is an event whose header and body joined contain the pattern, which the pattern still does not match |
| Render.Highlighting | event.go:128-147 | highlighted iff there is a regexp and it matches; the pieces are the text before, inside and after the leftmost match span, and together they are the line |
| Render.ClassifyLine | event.go:162-189 | a line is highlighted iff the filter matches it, and else verbatim iff it starts with a tab; a field is split at the first `": "` (value empty when there is none); its value is tagged numeric iff `reNumbers` matches |
| Render.DrawLine | event.go:162-189 | the markup written for one header line is the markup of its classification |
| Render.DrawHeader | event.go:150-190 | the header output is the newline-joined markup of the scanned lines |
| Render.DrawBody | event.go:194-206 | an empty body writes nothing; otherwise the `Content-Length:` row with the body's byte length, a newline, then the body (highlighted when it matches) |
| Render.FormatRE | event.go:123-209 | the output is the header part followed by the body part |
| Render.HeaderLinesSeparated | event.go:150-190 | for a header without carriage returns, each header line yields exactly one display line, which is its own markup |
| Render.HeaderPartUnterminated | event.go:150-190 | for a header without carriage returns, the header part is empty iff the header has no lines, and it never ends with a newline |
| Render.NoFilterNoEmphasis | event.go:128-131 | without a regexp no line is highlighted and the body is written as is |
| Render.BodyFollowsContentLength | event.go:194-206 | with a non-empty, unmatched body the output ends in a newline followed by the body; the length written parses back to the body's byte length |
| Render.ContentLengthSharesLastLine | event.go:150-206 | for a header without carriage returns, with header lines and a body, the `Content-Length:` row is appended to the last header line rather than put on its own line; the display lines are the header lines with the row glued to the last one, then the body |
| Decoding.Decodable | parse.go:44-53 | the number of objects before the first decoder error |
| Decoding.Decode | parse.go:38-70 | success iff no decoder error occurs, and then the events are one `NewEvent` per object in stream order; otherwise the first error; either way `headers` is rebuilt from scratch out of the objects decoded before the error |
| Decoding.RecordedKeysAreHeaderKeys | parse.go:59-66 | the names recorded for an object are exactly its header-block keys; `_body` is never among them |
| Decoding.SeenHeadersIff | parse.go:59-66 | a name is in `headers` iff it is a header-block key of some decoded object |
| Decoding.SeenHeadersExclude | parse.go:59-66 | `_body`, `Content-Length` and suppressed headers are never recorded |
| Decoding.FirstItemFails | parse.go:41-53 | a stream whose first item is an error yields no events and an empty `headers` |
| Viewer.HideSet | app.go:87-92 | a name is hidden iff it is the trimmed, non-empty form of some command-line name |
| Viewer.HideSetTrimmed | app.go:87-92 | hidden names are non-empty and already trimmed |
| Viewer.CompileFilter | app.go:163-177 | empty text gives no regexp and no note; otherwise the compiled `(?mi)` + text, or no regexp and the syntax-error code (else the error message) as note |
| Viewer.Picked | app.go:184-197 | the listed positions are strictly increasing and in range, and a position is listed iff its event is not hidden and there is no regexp or the event matches |
| Viewer.ListEvents | app.go:184-197 | the loop lists exactly the events at the picked positions, in log order |
| Viewer.FillList | app.go:160-204 | the list holds the picked events in log order; the regexp and note are the compilation's; the title is the one for the listed and total counts |
| Viewer.TitleIff | app.go:200-204 | the title starts `Filtered: ` iff fewer events are listed than exist; a filtered title cuts at `/` into listed and total counts; otherwise it is `Total: ` and the count |
| Viewer.TitleFiltered | app.go:200-201 | a filtered title is the prefix and the two counts joined by `/` |
| Viewer.NoMatcherListsAllVisible | app.go:175-191 | when the filter is empty or does not compile, an event is listed iff it is one of the events and its name is not hidden |
| Viewer.ListItemDone | app.go:233-236 | the filter text is cleared and nothing else in the state changes; then there is no regexp and no note, every event that is not hidden is listed, and the title is that of the counts |
| Viewer.HideEvent | app.go:253-258 | a valid index adds the listed event's name to the hidden set and changes nothing else; an invalid index changes nothing |
| Viewer.HideEventShrinks | app.go:253-258 | after hiding, no listed event has that name, every listed event was listed before, and the list is strictly shorter |
| Viewer.ListReset | app.go:260-263 | the hidden set becomes empty; events and filter are kept |
| Viewer.ListResetShowsFiltered | app.go:260-263 | after a reset an event is listed iff the filter allows it |
| Viewer.SearchFlag | app.go:136-139 | the search flag is written iff the trimmed filter is non-empty |
| Viewer.HideFlag | app.go:140-149 | the hide flag is written iff some name is hidden |
| Viewer.AllHeadersFlag | app.go:150-152 | the all-headers flag is written iff no header is suppressed |
| Viewer.Params | app.go:134-155 | a `params:` line is printed iff there is a search text, a hidden name or no suppressed header |
| Viewer.ParamsSearchFirst | app.go:136-139 | with a search text the line starts with `params: -search=` and the trimmed text |
| Viewer.ParamsNoSearch | app.go:134-155 | without a search text the line starts with `params: -hide-events="` when names are hidden, and is exactly `params: -all-headers` and a newline when none are |
| Viewer.ParamsAllHeadersLast | app.go:150-155 | with no suppressed header the line ends with ` -all-headers` and a newline |
| Viewer.ParamsHiddenLast | app.go:140-155 | with hidden names and suppressed headers the line ends with the quoted, comma-joined names and a newline |

## Left out

- The terminal UI is not modelled: cview widgets, focus, key bindings, the
  context menu, scrolling, the event pane title with `time.Format`, and
  `listItemSelected` and `filterDone`, which only call `FormatRE` or
  `fillList`. (`listItemDone` is modelled as `Viewer.ListItemDone`.)
- main.go (flag parsing, the `autocomplete` list) is not part of this
  model. Only its effect, an empty suppression set, appears
  as the `ignore` parameter.
- `Parse` opens the file and counts lines before calling `decode`. Both
  steps are file I/O. The JSON decoder is abstracted as the sequence of
  its results, where the end of the sequence stands for `io.EOF`. Records
  are assumed to be flat string maps.
- Decoding.Decode: the panic of `make` on a negative capacity is not
  modelled. `length` is a `nat`, because the only caller passes a line
  count.
- The regexp engine is abstracted. `(?mi)` is passed to the compiler
  parameter as a prefix, and its semantics are not modelled. Nor is the
  `regexp/syntax` error-code table.
- `Numbers.IsNumeric` treats `\s` as the ASCII white space of RE2, with no
  multi-line or Unicode classes.
- Text.TrimSpace: only ASCII white space is trimmed. Go also trims Unicode
  spaces such as U+0085 and U+00A0 in UTF-8.
- Text.ScanLines: `bufio.Scanner`'s 64 KiB token limit is not modelled.
  Longer header lines end the scan early in Go.
- Text.JoinScanLines: stated only for text without `'\r'`. `ScanLines`
  drops one carriage return before each newline, so joining does not
  rebuild such text.
- Render.HeaderLinesSeparated: stated only for a header without `'\r'`.
  A header value can carry a carriage return into a line (`"\ty\r"`), and
  scanning the rendered output drops it, so such a line does not scan back
  to its own markup.
- Render.HeaderPartUnterminated: stated only for a header without `'\r'`,
  the same restriction its proof shares with the line-structure lemmas.
- Render.ContentLengthSharesLastLine: stated only for a header without
  `'\r'`, for the same reason as `Render.HeaderLinesSeparated`.
- `time.UnixMicro` is not modelled: the timestamp is kept as its
  microsecond count.
- The colour strings that `color()` builds from the cview theme are an
  opaque `Palette`. The rendering lemmas about line structure require that
  those strings contain no newline.
- Go's random map iteration order appears as parameters. For `NewEvent`,
  `HeaderOrderIndependent` shows the order does not matter. For `Run`,
  `names` is any listing of the hidden set, so the order of the names in
  ` -hide-events` is left open.
- Viewer.Params: it does not state that ` -all-headers` is absent when
  headers are suppressed. An unquoted search text may itself end with
  those characters.
- Viewer.HideEvent: both call paths, the context-menu action
  (app.go:111) and the Ctrl-H key (app.go:243), pass the current item's
  index. The model treats every index outside the list as "no item"; how
  cview itself handles such an index is not modelled.
- Write errors of `bufio.Writer` are not modelled. The target is an
  in-memory text view, so `FormatRE` always returns its text.

=== FILE: app.dfy ===
/** The logic of the viewer's `App` with the widgets taken away: the
    initial set of hidden event names, the filter compilation and the event
    list that `fillList` shows with its title, the hide and restore
    actions, and the command line printed on exit by `Run`. */
module Viewer {
  import opened Wrappers
  import opened Text
  import opened Numbers
  import opened Events
  import opened Matching
  import opened Render

  // ---------------------------------------------------------------------------
  // NewApp: the hide set

  /** The set built from the `hideEvents` arguments: each name trimmed,
      empty names dropped. */
  method HideSet(names: seq<string>) returns (hidden: set<string>)
    ensures forall x :: x in hidden <==> exists i :: 0 <= i < |names| && x == TrimSpace(names[i]) && x != []
  {
    hidden := {};
    var i := 0;
    while i < |names|
      invariant i <= |names|
      invariant forall x :: x in hidden <==> exists j :: 0 <= j < i && x == TrimSpace(names[j]) && x != []
    {
      var name := TrimSpace(names[i]);
      ghost var before := hidden;
      if name != "" {
        hidden := hidden + {name};
      }
      forall x
        ensures x in hidden <==> exists j :: 0 <= j < i + 1 && x == TrimSpace(names[j]) && x != []
      {
        if x in before {
          var j :| 0 <= j < i && x == TrimSpace(names[j]) && x != [];
          assert 0 <= j < i + 1;
        }
        if exists j :: 0 <= j < i + 1 && x == TrimSpace(names[j]) && x != [] {
          var j :| 0 <= j < i + 1 && x == TrimSpace(names[j]) && x != [];
          if j < i {
            assert x in before;
          }
        }
      }
      i := i + 1;
    }
  }

  /** Every hidden name is already trimmed and non-empty. */
  lemma HideSetTrimmed(names: seq<string>, hidden: set<string>)
    requires forall x :: x in hidden <==> exists i :: 0 <= i < |names| && x == TrimSpace(names[i]) && x != []
    ensures forall x :: x in hidden ==> x != [] && TrimSpace(x) == x
  {
    forall x | x in hidden
      ensures x != [] && TrimSpace(x) == x
    {
      var i :| 0 <= i < |names| && x == TrimSpace(names[i]) && x != [];
      TrimSpaceIdempotent(names[i]);
    }
  }

  // ---------------------------------------------------------------------------
  // fillList

  /** Why `regexp.Compile` refused a pattern: a parse error carries its
      error code, anything else only its message. */
  datatype CompileError = SyntaxError(code: string, message: string) | OtherError(message: string)

  /** `regexp.Compile`, seen only through its outcome. */
  type Compiler = string -> Result<Finder, CompileError>

  /** The note shown under the filter field for a compile error: the code
      of a syntax error, else the error's message. */
  function Note(err: CompileError): string
  {
    match err
    case SyntaxError(code, _) => code
    case OtherError(message) => message
  }

  /** Flags prepended to the filter text: multi-line, case-insensitive. */
  const FilterFlags := "(?mi)"

  /** The matcher `fillList` installs and the field note it leaves. */
  datatype Compiled = Compiled(matcher: Matcher, note: string)

  /** The first half of `fillList`: no matcher for an empty filter; else
      the compiled `(?mi)` pattern, or no matcher and a note when it does
      not compile. */
  function CompileFilter(text: string, compile: Compiler): (c: Compiled)
    ensures text == [] ==> c == Compiled(None, "")
    ensures text != [] && compile(FilterFlags + text).Success? ==>
      c == Compiled(Some(compile(FilterFlags + text).value), "")
    ensures text != [] && compile(FilterFlags + text).Failure? ==>
      c == Compiled(None, Note(compile(FilterFlags + text).error))
    ensures c.matcher.Some? ==> text != [] && compile(FilterFlags + text).Success?
  {
    if text == [] then Compiled(None, "")
    else
      match compile(FilterFlags + text)
      case Success(find) => Compiled(Some(find), "")
      case Failure(err) => Compiled(None, Note(err))
  }

  /** An event is listed when its name is not hidden and, with a matcher,
      the matcher finds something in its header block or its body. */
  predicate Keep(e: Event, hidden: set<string>, m: Matcher) {
    e.name !in hidden && (m.None? || ContainsRE(e, m.value))
  }

  predicate StrictlyIncreasing(xs: seq<nat>) {
    forall i, j :: 0 <= i < j < |xs| ==> xs[i] < xs[j]
  }

  /** The positions of the listed events: exactly the kept ones, in
      order. */
  function Picked(events: seq<Event>, hidden: set<string>, m: Matcher): (ps: seq<nat>)
    ensures StrictlyIncreasing(ps)
    ensures forall k :: 0 <= k < |ps| ==> ps[k] < |events|
    ensures forall i :: 0 <= i < |events| ==> (i in ps <==> Keep(events[i], hidden, m))
    ensures |ps| <= |events|
  {
    if events == [] then []
    else
      var n := |events| - 1;
      var init := Picked(events[..n], hidden, m);
      assert forall i :: 0 <= i < n ==> events[..n][i] == events[i];
      if Keep(events[n], hidden, m) then init + [n] else init
  }

  /** The list title: `Filtered: c/n` when some events are not listed,
      `Total: c` otherwise (`[::d]` dims the figures). */
  function Title(c: nat, n: nat): string
  {
    if c < n then FilteredPrefix + FormatNat(c) + "/" + FormatNat(n)
    else TotalPrefix + FormatNat(c)
  }

  const FilteredPrefix := "Filtered: [::d]"
  const TotalPrefix := "Total: [::d]"

  /** What `fillList` leaves on screen: the listed events, the matcher in
      force, the field note and the list title. */
  datatype View = View(listed: seq<Event>, matcher: Matcher, note: string, title: string)

  /** The viewer's state as far as `fillList` reads it: all events, the
      hidden names and the text of the filter field. */
  datatype App = App(events: seq<Event>, hidden: set<string>, filter: string)

  /** `fillList`, written as the Go code runs: compile the filter, then
      walk the events once, skipping hidden names and, with a matcher,
      events it does not match; then set the title from the count. */
  method FillList(app: App, compile: Compiler) returns (view: View)
    ensures view.matcher == CompileFilter(app.filter, compile).matcher
    ensures view.note == CompileFilter(app.filter, compile).note
    ensures var ps := Picked(app.events, app.hidden, view.matcher);
      && |view.listed| == |ps|
      && forall k :: 0 <= k < |ps| ==> view.listed[k] == app.events[ps[k]]
    ensures view.title == Title(|view.listed|, |app.events|)
    ensures view.listed == Listed(app, compile)
  {
    var c := CompileFilter(app.filter, compile);
    var listed := ListEvents(app.events, app.hidden, c.matcher);
    view := View(listed, c.matcher, c.note, Title(|listed|, |app.events|));
  }

  /** The loop of `fillList`: walk the events once, skipping hidden names
      and, with a matcher, the events it does not match. */
  method ListEvents(events: seq<Event>, hidden: set<string>, re: Matcher) returns (listed: seq<Event>)
    ensures listed == Gather(events, Picked(events, hidden, re))
  {
    listed := [];
    var i := 0;
    while i < |events|
      invariant i <= |events|
      invariant listed == Gather(events, Picked(events[..i], hidden, re))
    {
      var event := events[i];
      GatherStep(events, i, hidden, re);
      if event.name !in hidden {
        if re.None? || ContainsRE(event, re.value) {
          listed := listed + [event];
        }
      }
      i := i + 1;
    }
    assert events[..|events|] == events;
  }

  /** The events at the given positions, in the order of the positions. */
  function Gather(events: seq<Event>, ps: seq<nat>): (out: seq<Event>)
    requires forall k :: 0 <= k < |ps| ==> ps[k] < |events|
  {
    seq(|ps|, k requires 0 <= k < |ps| => events[ps[k]])
  }

  lemma PickedSnoc(events: seq<Event>, i: nat, hidden: set<string>, m: Matcher)
    requires i < |events|
    ensures Picked(events[..i + 1], hidden, m) ==
      Picked(events[..i], hidden, m) + if Keep(events[i], hidden, m) then [i] else []
  {
    assert events[..i + 1][..i] == events[..i];
  }

  /** One step of the `fillList` loop: the next event is appended exactly
      when it is kept. */
  lemma GatherStep(events: seq<Event>, i: nat, hidden: set<string>, m: Matcher)
    requires i < |events|
    ensures Gather(events, Picked(events[..i + 1], hidden, m)) ==
      Gather(events, Picked(events[..i], hidden, m)) + if Keep(events[i], hidden, m) then [events[i]] else []
  {
    PickedSnoc(events, i, hidden, m);
  }

  /** The listed events as one pure function of the state. */
  function Listed(app: App, compile: Compiler): (listed: seq<Event>)
  {
    var m := CompileFilter(app.filter, compile).matcher;
    Gather(app.events, Picked(app.events, app.hidden, m))
  }

  /** The title says `Filtered` exactly when fewer events are listed than
      there are, and then shows both counts; otherwise it shows the
      total. */
  lemma TitleIff(c: nat, n: nat)
    requires c <= n
    ensures var t := Title(c, n);
      && (c < n <==> |t| >= 15 && t[..15] == FilteredPrefix)
      && (c < n ==> CutAt(t[15..], "/") == Cut(FormatNat(c), FormatNat(n), true))
      && (c == n ==> t == TotalPrefix + FormatNat(n))
  {
    if c < n {
      TitleFiltered(c, n);
    } else {
      var t := Title(c, n);
      assert t[0] == 'T';
    }
  }

  lemma TitleFiltered(c: nat, n: nat)
    requires c < n
    ensures var t := Title(c, n);
      |t| >= 15 && t[..15] == FilteredPrefix && CutAt(t[15..], "/") == Cut(FormatNat(c), FormatNat(n), true)
  {
    var t := Title(c, n);
    var digits := FormatNat(c);
    var rest := digits + "/" + FormatNat(n);
    assert t == FilteredPrefix + rest;
    assert t[15..] == rest;
    NoSlashInDigits(digits);
    CutAtFirst(digits, "/", FormatNat(n));
  }

  lemma NoSlashInDigits(s: string)
    requires AllDigits(s)
    ensures !Contains(s, "/")
  {
    forall j | 0 <= j <= |s|
      ensures !Occurs("/", s, j)
    {
      if j + 1 <= |s| {
        assert s[j..j + 1][0] == s[j];
      }
    }
  }

  /** Cutting `a + sep + b` at a one-character separator absent from `a`
      splits it back into `a` and `b`. */
  lemma CutAtFirst(a: string, sep: string, b: string)
    requires |sep| == 1 && !Contains(a, sep)
    ensures CutAt(a + sep + b, sep) == Cut(a, b, true)
  {
    var s := a + sep + b;
    assert s[|a|..|a| + 1] == sep;
    assert Occurs(sep, s, |a|);
    var c := CutAt(s, sep);
    assert c.found;
    if |c.before| < |a| {
      var j := |c.before|;
      assert Occurs(sep, s, j);
      assert s[j..j + 1] == a[j..j + 1];
      assert Occurs(sep, a, j);
    }
    assert c.before == s[..|a|] == a;
    assert c.after == s[|a| + 1..] == b;
  }

  /** With an empty filter, and equally when the filter does not compile,
      every event whose name is not hidden is listed. */
  lemma NoMatcherListsAllVisible(app: App, compile: Compiler)
    requires CompileFilter(app.filter, compile).matcher.None?
    ensures forall i :: 0 <= i < |app.events| ==>
      (i in Picked(app.events, app.hidden, None) <==> app.events[i].name !in app.hidden)
    ensures forall e :: e in Listed(app, compile) <==> e in app.events && e.name !in app.hidden
  {
    var ps := Picked(app.events, app.hidden, None);
    var listed := Listed(app, compile);
    assert listed == Gather(app.events, ps);
    forall e | e in app.events && e.name !in app.hidden
      ensures e in listed
    {
      var i :| 0 <= i < |app.events| && app.events[i] == e;
      var k :| 0 <= k < |ps| && ps[k] == i;
      assert listed[k] == e;
    }
    forall e | e in listed
      ensures e in app.events && e.name !in app.hidden
    {
      var k :| 0 <= k < |listed| && listed[k] == e;
      assert e == app.events[ps[k]];
    }
  }

  /** `listItemDone`: the filter field is cleared, then `fillList` runs, so
      every event that is not hidden is listed again. */
  method ListItemDone(app: App, compile: Compiler) returns (cleared: App, view: View)
    ensures cleared.events == app.events && cleared.hidden == app.hidden && cleared.filter == []
    ensures view.matcher.None? && view.note == []
    ensures forall e :: e in view.listed <==> e in app.events && e.name !in app.hidden
    ensures view.title == Title(|view.listed|, |app.events|)
  {
    cleared := app.(filter := []);
    view := FillList(cleared, compile);
    NoMatcherListsAllVisible(cleared, compile);
  }

  // ---------------------------------------------------------------------------
  // hideEvent and listReset

  /** `hideEvent(index)`: hide the name of the listed event at `index`, if
      there is one; otherwise nothing changes. */
  function HideEvent(app: App, listed: seq<Event>, index: int): (next: App)
    ensures next.events == app.events && next.filter == app.filter
    ensures 0 <= index < |listed| ==> next.hidden == app.hidden + {listed[index].name}
    ensures !(0 <= index < |listed|) ==> next == app
  {
    if 0 <= index < |listed| then app.(hidden := app.hidden + {listed[index].name}) else app
  }

  /** `listReset`: nothing is hidden any more. */
  function ListReset(app: App): (next: App)
    ensures next.hidden == {}
    ensures next.events == app.events && next.filter == app.filter
  {
    app.(hidden := {})
  }

  /** After hiding an event, no event of that name is listed, and every
      event still listed was listed before. */
  lemma HideEventShrinks(app: App, compile: Compiler, index: int)
    requires 0 <= index < |Listed(app, compile)|
    ensures var name := Listed(app, compile)[index].name;
      var next := HideEvent(app, Listed(app, compile), index);
      && (forall e :: e in Listed(next, compile) ==> e.name != name)
      && (forall e :: e in Listed(next, compile) ==> e in Listed(app, compile))
      && |Listed(next, compile)| < |Listed(app, compile)|
  {
    var listed := Listed(app, compile);
    var name := listed[index].name;
    var next := HideEvent(app, listed, index);
    var m := CompileFilter(app.filter, compile).matcher;
    var ps := Picked(app.events, app.hidden, m);
    var qs := Picked(next.events, next.hidden, m);
    forall e | e in Listed(next, compile)
      ensures e.name != name && e in listed
    {
      var k :| 0 <= k < |qs| && Listed(next, compile)[k] == e;
      var i := qs[k];
      assert Keep(app.events[i], next.hidden, m);
      assert i in ps;
      var k' :| 0 <= k' < |ps| && ps[k'] == i;
      assert listed[k'] == e;
    }
    var gone := ps[index];
    assert gone !in qs;
    forall k | 0 <= k < |qs|
      ensures qs[k] in ps
    {
      assert Keep(app.events[qs[k]], next.hidden, m);
    }
    SubsetShorter(qs, ps, gone);
  }

  /** A strictly increasing sequence whose elements all occur in another
      strictly increasing one is no longer, and shorter when the other holds
      an element it lacks. */
  lemma {:induction false} SubsetShorter(qs: seq<nat>, ps: seq<nat>, extra: nat)
    requires StrictlyIncreasing(qs) && StrictlyIncreasing(ps)
    requires forall k :: 0 <= k < |qs| ==> qs[k] in ps
    ensures |qs| <= |ps|
    ensures extra in ps && extra !in qs ==> |qs| < |ps|
    decreases |ps|
  {
    if ps != [] {
      var init := ps[..|ps| - 1];
      if qs != [] && qs[|qs| - 1] == ps[|ps| - 1] {
        var qi := qs[..|qs| - 1];
        AllBelowLast(qi, ps);
        SubsetShorter(qi, init, extra);
        if extra in ps && extra !in qs {
          assert extra != ps[|ps| - 1] && extra in init && extra !in qi;
        }
      } else {
        AllBelowLast(qs, ps);
        SubsetShorter(qs, init, extra);
        if extra in ps && extra !in qs && |qs| == |ps| - 1 {
          assert extra in init || extra == ps[|ps| - 1];
        }
      }
    }
  }

  /** Elements of `ps` other than its last all lie in its prefix; so does a
      strictly increasing selection from `ps` that misses the last one. */
  lemma AllBelowLast(qs: seq<nat>, ps: seq<nat>)
    requires ps != [] && StrictlyIncreasing(ps) && StrictlyIncreasing(qs)
    requires forall k :: 0 <= k < |qs| ==> qs[k] in ps && qs[k] < ps[|ps| - 1]
    ensures StrictlyIncreasing(ps[..|ps| - 1])
    ensures forall k :: 0 <= k < |qs| ==> qs[k] in ps[..|ps| - 1]
  {
    var init := ps[..|ps| - 1];
    forall k | 0 <= k < |qs|
      ensures qs[k] in init
    {
      var j :| 0 <= j < |ps| && ps[j] == qs[k];
      assert j < |ps| - 1 && init[j] == qs[k];
    }
  }

  /** After `listReset` only the filter decides what is listed. */
  lemma ListResetShowsFiltered(app: App, compile: Compiler)
    ensures var m := CompileFilter(app.filter, compile).matcher;
      forall i :: 0 <= i < |app.events| ==>
        (i in Picked(ListReset(app).events, ListReset(app).hidden, m) <==> (m.None? || ContainsRE(app.events[i], m.value)))
  {
  }

  // ---------------------------------------------------------------------------
  // Run: the parameters to restart with the same view

  /** ` -search=<text>` for a filter that is not blank. */
  function SearchFlag(filter: string): (flag: string)
    ensures flag == [] <==> TrimSpace(filter) == []
  {
    var search := TrimSpace(filter);
    if search != [] then SearchOption + search else []
  }

  const SearchOption := " -search="
  const HideOption := " -hide-events=\""
  const AllHeadersOption := " -all-headers"
  const ParamsPrefix := "params:"

  /** ` -hide-events="a,b"` for a non-empty hide set; `names` is the order
      in which the map hands out its keys. */
  function HideFlag(names: seq<string>): (flag: string)
    ensures flag == [] <==> names == []
  {
    if names != [] then HideOption + JoinComma(names) + "\"" else []
  }

  /** `strings.Join(names, ",")`. */
  function JoinComma(names: seq<string>): string
  {
    if |names| == 0 then []
    else if |names| == 1 then names[0]
    else names[0] + "," + JoinComma(names[1..])
  }

  /** ` -all-headers` when no header is suppressed. */
  function AllHeadersFlag(ignore: set<string>): (flag: string)
    ensures flag == [] <==> ignore != {}
  {
    if ignore == {} then AllHeadersOption else []
  }

  /** `names` lists the hide set, each name once. */
  predicate Enumerates(names: seq<string>, hidden: set<string>) {
    && |names| == |hidden|
    && (forall i :: 0 <= i < |names| ==> names[i] in hidden)
    && (forall x :: x in hidden ==> x in names)
  }

  /** The line `Run` prints after the UI ends, if any: `params:` and the
      flags that reproduce the current filter, hidden names and header
      mode. */
  function Params(filter: string, hidden: set<string>, names: seq<string>, ignore: set<string>): (line: Option<string>)
    requires Enumerates(names, hidden)
    ensures line.Some? <==> TrimSpace(filter) != [] || hidden != {} || ignore == {}
  {
    ParamsLine(SearchFlag(filter) + HideFlag(names) + AllHeadersFlag(ignore))
  }

  /** `fmt.Printf("params:%s\n", cmd)`, printed only for a non-empty
      command. */
  function ParamsLine(cmd: string): (line: Option<string>)
    ensures line.Some? <==> cmd != []
  {
    if cmd != [] then Some(ParamsPrefix + cmd + "\n") else None
  }

  lemma ConcatAssoc(a: string, b: string, c: string)
    ensures a + b + c == a + (b + c)
  {
  }

  lemma LineEnds(a: string, b: string)
    requires b != []
    ensures ParamsLine(a + b).Some? && EndsWith(ParamsLine(a + b).value, b + "\n")
  {
    assert ParamsLine(a + b).value == ("params:" + a) + (b + "\n");
  }

  /** The map hands out no names exactly when nothing is hidden. */
  lemma EnumeratesEmpty(names: seq<string>, hidden: set<string>)
    requires Enumerates(names, hidden)
    ensures names == [] <==> hidden == {}
  {
    if names != [] {
      assert names[0] in hidden;
    }
  }

  /** The printed line starts with ` -search=` and the trimmed filter
      whenever the trimmed filter is not empty. */
  lemma ParamsSearchFirst(filter: string, hidden: set<string>, names: seq<string>, ignore: set<string>)
    requires Enumerates(names, hidden)
    ensures var line := Params(filter, hidden, names, ignore);
      var search := TrimSpace(filter);
      search != [] ==> line.Some? && StartsWith(line.value, ParamsPrefix + SearchOption + search)
  {
    var search := TrimSpace(filter);
    if search != [] {
      var sf, rest := SearchFlag(filter), HideFlag(names) + AllHeadersFlag(ignore);
      ConcatAssoc(sf, HideFlag(names), AllHeadersFlag(ignore));
      assert StartsWith(sf, SearchOption + search);
      LineStartsWith(sf, rest, SearchOption + search);
      assert ParamsPrefix + (SearchOption + search) == ParamsPrefix + SearchOption + search;
    }
  }

  /** Otherwise the line starts with the hide flag when names are hidden,
      and is just the all-headers flag when none are. */
  lemma ParamsNoSearch(filter: string, hidden: set<string>, names: seq<string>, ignore: set<string>)
    requires Enumerates(names, hidden)
    ensures var line := Params(filter, hidden, names, ignore);
      TrimSpace(filter) == [] && line.Some? ==>
        && (hidden != {} ==> StartsWith(line.value, ParamsPrefix + HideOption))
        && (hidden == {} ==> line.value == ParamsPrefix + AllHeadersOption + "\n")
  {
    var line := Params(filter, hidden, names, ignore);
    if TrimSpace(filter) == [] && line.Some? {
      EnumeratesEmpty(names, hidden);
      var hf, af := HideFlag(names), AllHeadersFlag(ignore);
      NoSearchLine(filter, hf, af);
      if hidden != {} {
        assert hf == HideOption + (JoinComma(names) + "\"");
        LineStartsWith(hf, af, HideOption);
      } else {
        assert hf + af == AllHeadersOption;
      }
    }
  }

  lemma NoSearchLine(filter: string, a: string, b: string)
    requires TrimSpace(filter) == []
    ensures ParamsLine(SearchFlag(filter) + a + b) == ParamsLine(a + b)
  {
    assert SearchFlag(filter) + a + b == a + b;
  }

  predicate StartsWith(s: string, p: string) {
    |p| <= |s| && s[..|p|] == p
  }

  lemma LineStartsWith(a: string, b: string, p: string)
    requires StartsWith(a, p) && p != []
    ensures ParamsLine(a + b).Some? && StartsWith(ParamsLine(a + b).value, ParamsPrefix + p)
  {
    assert a == p + a[|p|..];
    assert a + b != [];
    assert ParamsLine(a + b).value == (ParamsPrefix + p) + (a[|p|..] + b + "\n");
  }

  /** With every header shown the line ends with ` -all-headers`. */
  lemma ParamsAllHeadersLast(filter: string, hidden: set<string>, names: seq<string>, ignore: set<string>)
    requires Enumerates(names, hidden) && ignore == {}
    ensures var line := Params(filter, hidden, names, ignore);
      line.Some? && EndsWith(line.value, AllHeadersOption + "\n")
  {
    LineEnds(SearchFlag(filter) + HideFlag(names), AllHeadersFlag(ignore));
  }

  /** With names hidden and headers suppressed the line ends with the
      quoted, comma-separated names. */
  lemma ParamsHiddenLast(filter: string, hidden: set<string>, names: seq<string>, ignore: set<string>)
    requires Enumerates(names, hidden) && hidden != {} && ignore != {}
    ensures var line := Params(filter, hidden, names, ignore);
      line.Some? && EndsWith(line.value, HideOption + JoinComma(names) + "\"\n")
  {
    var sf, hf := SearchFlag(filter), HideFlag(names);
    EnumeratesEmpty(names, hidden);
    assert Params(filter, hidden, names, ignore) == ParamsLine(sf + hf) by {
      assert sf + hf + [] == sf + hf;
    }
    LineEnds(sf, hf);
    assert hf + "\n" == HideOption + JoinComma(names) + "\"\n";
  }

  predicate EndsWith(s: string, p: string) {
    |p| <= |s| && s[|s| - |p|..] == p
  }
}

=== FILE: event.dfy ===
/** One FreeSWITCH event log record turned into an `Event`
    (`NewEvent` in event.go): its name, sequence number, timestamp, body,
    and the canonical header block. */
module Events {
  import opened Wrappers
  import opened Text
  import opened Order
  import opened Numbers

  /** A decoded JSON record: header names to values. */
  type Record = map<string, string>

  /** `timestamp` is `None` for Go's zero `time.Time`, else the number of
      microseconds since the Unix epoch. */
  datatype Event = Event(
    name: string,
    sequence: int,
    timestamp: Option<int>,
    header: string,
    body: string)

  const SubclassKey := "Event-Subclass"
  const NameKey := "Event-Name"
  const SequenceKey := "Event-Sequence"
  const TimestampKey := "Event-Date-Timestamp"
  /** The reserved key that carries the event body in the JSON log. */
  const BodyKey := "_body"
  /** Never taken from the record: the renderer recomputes it. */
  const ContentLength := "Content-Length"

  /** Headers left out of the header block unless all headers are asked for
      (then the caller passes the empty set). */
  const IgnoreHeaders: set<string> := {
    "Core-UUID",
    "Event-Calling-File",
    "Event-Calling-Function",
    "Event-Calling-Line-Number",
    "Event-Date-GMT",
    "Event-Date-Timestamp",
    "FreeSWITCH-Hostname",
    "FreeSWITCH-IPv4",
    "FreeSWITCH-IPv6",
    "FreeSWITCH-Switchname",
    "FreeSWITCH-Version"
  }

  /** Go's map index: the zero value `""` for a missing key. */
  function Get(rec: Record, key: string): (v: string)
    ensures key in rec ==> v == rec[key]
    ensures key !in rec ==> v == ""
  {
    if key in rec then rec[key] else ""
  }

  /** The keys that make it into the header block. */
  function HeaderKeys(rec: Record, ignore: set<string>): (keys: set<string>)
    ensures forall k :: k in keys <==> k in rec && k != BodyKey && k != ContentLength && k !in ignore
  {
    set k | k in rec && k != BodyKey && k != ContentLength && k !in ignore
  }

  /** One header line: the value trimmed, continuation lines indented. */
  function HeaderLine(key: string, value: string): string
  {
    key + ": " + ReplaceNewLine(TrimSpace(value)) + "\n"
  }

  /** The header lines of `keys`, in the given order. */
  function Serialize(keys: seq<string>, rec: Record): (block: string)
    requires forall i :: 0 <= i < |keys| ==> keys[i] in rec
    ensures block == [] <==> keys == []
    ensures block != [] ==> block[|block| - 1] == '\n'
  {
    if keys == [] then []
    else
      var rest := Serialize(keys[1..], rec);
      var block := HeaderLine(keys[0], rec[keys[0]]) + rest;
      assert rest != [] ==> block[|block| - 1] == rest[|rest| - 1];
      block
  }

  /** `NewEvent(event)` for the suppression set `ignore`.
      - The name is `Event-Subclass` whenever that key is present, even with
        an empty value; otherwise `Event-Name`, or `""`.
      - The sequence is whatever `strconv.ParseInt` yields for
        `Event-Sequence`, its error dropped: 0 when absent or malformed, the
        clamped bound when too large.
      - The timestamp is set only when `Event-Date-Timestamp` parses without
        error.
      - The body is the `_body` value or `""`.
      - The header block lists every other key except `Content-Length` and
        the suppressed ones, in ascending byte order. */
  function NewEvent(rec: Record, ignore: set<string>): (e: Event)
    ensures SubclassKey in rec ==> e.name == rec[SubclassKey]
    ensures SubclassKey !in rec ==> e.name == Get(rec, NameKey)
    ensures e.sequence == ParseInt(Get(rec, SequenceKey)).value
    ensures MinInt64 <= e.sequence <= MaxInt64
    ensures e.timestamp.Some? <==> ParseInt(Get(rec, TimestampKey)).status == Ok
    ensures e.timestamp.Some? ==> e.timestamp.value == SignedValue(Get(rec, TimestampKey))
    ensures e.body == Get(rec, BodyKey)
    ensures e.header == Serialize(SortedKeys(HeaderKeys(rec, ignore)), rec)
  {
    var name := if SubclassKey in rec then rec[SubclassKey] else Get(rec, NameKey);
    var sequence := ParseInt(Get(rec, SequenceKey)).value;
    var ts := ParseInt(Get(rec, TimestampKey));
    var timestamp := if ts.status == Ok then Some(ts.value) else None;
    var header := Serialize(SortedKeys(HeaderKeys(rec, ignore)), rec);
    Event(name, sequence, timestamp, header, Get(rec, BodyKey))
  }

  /** The caller's map once `NewEvent` returns: `NewEvent` deletes the body
      key from the map it was given. */
  function AfterNewEvent(rec: Record): (rest: Record)
    ensures rest.Keys == rec.Keys - {BodyKey}
    ensures forall k :: k in rest ==> rest[k] == rec[k]
  {
    rec - {BodyKey}
  }

  // ---------------------------------------------------------------------------
  // Properties of NewEvent

  /** The header block is empty exactly when no key survives the filters,
      and otherwise ends with a newline. */
  lemma HeaderEmptyIff(rec: Record, ignore: set<string>)
    ensures NewEvent(rec, ignore).header == [] <==> HeaderKeys(rec, ignore) == {}
    ensures NewEvent(rec, ignore).header != [] ==>
      NewEvent(rec, ignore).header[|NewEvent(rec, ignore).header| - 1] == '\n'
  {
    var keys := SortedKeys(HeaderKeys(rec, ignore));
    if HeaderKeys(rec, ignore) != {} {
      var k :| k in HeaderKeys(rec, ignore);
      assert k in keys;
    }
  }

  /** The header block does not depend on the order the map hands out its
      keys: any ascending listing of the surviving keys gives the same
      block. */
  lemma HeaderOrderIndependent(rec: Record, ignore: set<string>, keys: seq<string>)
    requires StrictlySorted(keys)
    requires forall k :: k in keys <==> k in HeaderKeys(rec, ignore)
    ensures NewEvent(rec, ignore).header == Serialize(keys, rec)
  {
    SortedUnique(keys, SortedKeys(HeaderKeys(rec, ignore)));
  }

  /** A sequence number written by `strconv.Itoa` comes back unchanged. */
  lemma SequenceRoundTrip(rec: Record, ignore: set<string>, n: nat)
    requires n <= MaxInt64
    requires SequenceKey in rec && rec[SequenceKey] == FormatNat(n)
    ensures NewEvent(rec, ignore).sequence == n
  {
    ParseFormatNat(n);
  }

  /** A malformed `Event-Sequence` of at most twenty bytes, or none at all,
      gives sequence number 0. */
  lemma MalformedSequenceIsZero(rec: Record, ignore: set<string>)
    requires !IsDecimal(Get(rec, SequenceKey)) && |Get(rec, SequenceKey)| <= 20
    ensures NewEvent(rec, ignore).sequence == 0
  {
    ShortMalformedIsSyntaxError(Get(rec, SequenceKey));
  }

  /** A sequence number too large for 64 bits is kept as the clamped
      maximum, while the same text as a timestamp leaves the zero time. */
  lemma OverflowSequenceClampedTimestampDropped(rec: Record, ignore: set<string>)
    requires SequenceKey in rec && TimestampKey in rec
    requires rec[SequenceKey] == rec[TimestampKey]
    requires IsDecimal(rec[SequenceKey]) && rec[SequenceKey][0] != '-'
    requires SignedValue(rec[SequenceKey]) > MaxInt64
    ensures NewEvent(rec, ignore).sequence == MaxInt64
    ensures NewEvent(rec, ignore).timestamp == None
  {
  }

  // ---------------------------------------------------------------------------
  // Reading a header block back

  /** Keys that keep the header block readable: no newline, no `": "`, and
      no leading tab (which would look like a continuation line). */
  predicate PlainKey(k: string) {
    '\n' !in k && !Contains(k, ": ") && (|k| > 0 ==> k[0] != '\t')
  }

  /** The newline that ends a value starting at `from`: the first one not
      followed by a tab. */
  function ValueEnd(r: string, from: nat): (j: Option<nat>)
    requires from <= |r|
    ensures j.Some? ==> from <= j.value < |r| && r[j.value] == '\n'
    decreases |r| - from
  {
    if from == |r| then None
    else if r[from] == '\n' && (from + 1 == |r| || r[from + 1] != '\t') then Some(from)
    else ValueEnd(r, from + 1)
  }

  /** Reads a header block back into (key, value) pairs, undoing the
      indentation of continuation lines. */
  function ParseHeaderBlock(block: string): seq<(string, string)>
    decreases |block|
  {
    if block == [] then []
    else
      match Find(": ", block)
      case None => []
      case Some(i) =>
        var rest := block[i + 2..];
        match ValueEnd(rest, 0)
        case None => []
        case Some(j) => [(block[..i], RestoreNewLine(rest[..j]))] + ParseHeaderBlock(rest[j + 1..])
  }

  /** The trimmed values of `keys`, paired with their keys. */
  function Entries(keys: seq<string>, rec: Record): (es: seq<(string, string)>)
    requires forall i :: 0 <= i < |keys| ==> keys[i] in rec
    ensures |es| == |keys|
    ensures forall i :: 0 <= i < |keys| ==> es[i] == (keys[i], TrimSpace(rec[keys[i]]))
  {
    seq(|keys|, i requires 0 <= i < |keys| => (keys[i], TrimSpace(rec[keys[i]])))
  }

  lemma FindSeparator(key: string, rest: string)
    requires !Contains(key, ": ")
    ensures Find(": ", key + ": " + rest) == Some(|key|)
  {
    var s := key + ": " + rest;
    assert Occurs(": ", s, |key|);
    forall j | 0 <= j < |key|
      ensures !Occurs(": ", s, j)
    {
      if j + 1 < |key| {
        assert s[j..j + 2] == key[j..j + 2];
        assert !Occurs(": ", key, j);
      } else {
        assert s[j + 1] == ':';
      }
    }
  }

  lemma {:induction false} ValueEndAfter(v: string, next: string, from: nat)
    requires from <= |v|
    requires forall i :: 0 <= i < |v| && v[i] == '\n' ==> i + 1 < |v| && v[i + 1] == '\t'
    requires |next| > 0 ==> next[0] != '\t'
    ensures ValueEnd(v + "\n" + next, from) == Some(|v|)
    decreases |v| - from
  {
    var r := v + "\n" + next;
    if from < |v| {
      if r[from] == '\n' {
        assert r[from + 1] == v[from + 1] == '\t';
      }
      ValueEndAfter(v, next, from + 1);
    }
  }

  /** One entry of a block is read back as its key and restored value. */
  lemma {:induction false} ParseHeaderBlockStep(k: string, v: string, next: string)
    requires !Contains(k, ": ")
    requires forall i :: 0 <= i < |v| && v[i] == '\n' ==> i + 1 < |v| && v[i + 1] == '\t'
    requires |next| > 0 ==> next[0] != '\t'
    ensures ParseHeaderBlock(k + ": " + (v + "\n" + next))
         == [(k, RestoreNewLine(v))] + ParseHeaderBlock(next)
  {
    var rest := v + "\n" + next;
    var block := k + ": " + rest;
    FindSeparator(k, rest);
    assert block[|k| + 2..] == rest;
    assert block[..|k|] == k;
    ValueEndAfter(v, next, 0);
    assert rest[..|v|] == v;
    assert rest[|v| + 1..] == next;
    assert ParseHeaderBlock(block)
        == [(block[..|k|], RestoreNewLine(rest[..|v|]))] + ParseHeaderBlock(rest[|v| + 1..]);
  }

  lemma SerializeCons(keys: seq<string>, rec: Record)
    requires keys != [] && forall i :: 0 <= i < |keys| ==> keys[i] in rec
    ensures Serialize(keys, rec)
         == keys[0] + ": " + (ReplaceNewLine(TrimSpace(rec[keys[0]])) + "\n" + Serialize(keys[1..], rec))
    ensures Serialize(keys, rec)[0] == (keys[0] + ": ")[0]
  {
    var k, v, rest := keys[0], ReplaceNewLine(TrimSpace(rec[keys[0]])), Serialize(keys[1..], rec);
    assert Serialize(keys, rec) == (k + ": " + v + "\n") + rest;
    LineShape(k, v, rest);
  }

  lemma LineShape(k: string, v: string, rest: string)
    ensures (k + ": " + v + "\n") + rest == k + ": " + (v + "\n" + rest)
    ensures ((k + ": " + v + "\n") + rest)[0] == (k + ": ")[0]
  {
  }

  /** Reading back a serialised block yields each key with its trimmed
      value, in the same order. */
  lemma {:induction false} ParseSerialize(keys: seq<string>, rec: Record)
    requires forall i :: 0 <= i < |keys| ==> keys[i] in rec && PlainKey(keys[i])
    ensures ParseHeaderBlock(Serialize(keys, rec)) == Entries(keys, rec)
  {
    if keys != [] {
      var k := keys[0];
      var t := TrimSpace(rec[k]);
      var next := Serialize(keys[1..], rec);
      SerializeCons(keys, rec);
      SerializeNoLeadingTab(keys[1..], rec);
      assert PlainKey(k);
      ParseHeaderBlockStep(k, ReplaceNewLine(t), next);
      RestoreReplaceNewLine(t);
      ParseSerialize(keys[1..], rec);
      EntriesCons(keys, rec);
    }
  }

  /** A serialised block never starts like a continuation line. */
  lemma SerializeNoLeadingTab(keys: seq<string>, rec: Record)
    requires forall i :: 0 <= i < |keys| ==> keys[i] in rec && PlainKey(keys[i])
    ensures Serialize(keys, rec) != [] ==> Serialize(keys, rec)[0] != '\t'
  {
    if keys != [] {
      SerializeCons(keys, rec);
      assert PlainKey(keys[0]);
    }
  }

  lemma EntriesCons(keys: seq<string>, rec: Record)
    requires keys != [] && forall i :: 0 <= i < |keys| ==> keys[i] in rec
    ensures Entries(keys, rec) == [(keys[0], TrimSpace(rec[keys[0]]))] + Entries(keys[1..], rec)
  {
  }

  /** The header block of an event lists exactly the surviving keys, each
      once, in ascending order, each with its trimmed value: reading it back
      recovers them. */
  lemma HeaderBlockRoundTrip(rec: Record, ignore: set<string>)
    requires forall k :: k in HeaderKeys(rec, ignore) ==> PlainKey(k)
    ensures var entries := ParseHeaderBlock(NewEvent(rec, ignore).header);
            var keys := SortedKeys(HeaderKeys(rec, ignore));
            && |entries| == |HeaderKeys(rec, ignore)|
            && (forall i :: 0 <= i < |entries| ==> entries[i] == (keys[i], TrimSpace(rec[keys[i]])))
  {
    var keys := SortedKeys(HeaderKeys(rec, ignore));
    assert forall i :: 0 <= i < |keys| ==> keys[i] in HeaderKeys(rec, ignore);
    ParseSerialize(keys, rec);
  }

  /** The keys the name is taken from stay in the header block (unless
      suppressed): reading the block back finds them with their trimmed
      values. */
  lemma NameKeysStayInHeader(rec: Record, ignore: set<string>, key: string)
    requires key == SubclassKey || key == NameKey
    requires key in rec && key !in ignore
    requires forall k :: k in HeaderKeys(rec, ignore) ==> PlainKey(k)
    ensures exists i ::
      && 0 <= i < |ParseHeaderBlock(NewEvent(rec, ignore).header)|
      && ParseHeaderBlock(NewEvent(rec, ignore).header)[i] == (key, TrimSpace(rec[key]))
  {
    var keys := SortedKeys(HeaderKeys(rec, ignore));
    assert key in HeaderKeys(rec, ignore);
    var i :| 0 <= i < |keys| && keys[i] == key;
    HeaderBlockRoundTrip(rec, ignore);
    assert ParseHeaderBlock(NewEvent(rec, ignore).header)[i] == (key, TrimSpace(rec[key]));
  }

  /** With the start-up suppression set, no suppressed header appears among
      the entries of the header block; `Core-UUID` and `Event-Date-Timestamp`
      are named as two instances.  The timestamp is still read from the
      record. */
  lemma DefaultSuppression(rec: Record)
    requires forall k :: k in HeaderKeys(rec, IgnoreHeaders) ==> PlainKey(k)
    ensures var entries := ParseHeaderBlock(NewEvent(rec, IgnoreHeaders).header);
      forall i :: 0 <= i < |entries| ==>
        entries[i].0 !in IgnoreHeaders && entries[i].0 != "Core-UUID" && entries[i].0 != TimestampKey
    ensures NewEvent(rec, IgnoreHeaders).timestamp.Some? <==> ParseInt(Get(rec, TimestampKey)).status == Ok
  {
    var keys := SortedKeys(HeaderKeys(rec, IgnoreHeaders));
    HeaderBlockRoundTrip(rec, IgnoreHeaders);
    assert forall i :: 0 <= i < |keys| ==> keys[i] in HeaderKeys(rec, IgnoreHeaders);
    assert "Core-UUID" in IgnoreHeaders && TimestampKey in IgnoreHeaders;
  }
}

=== FILE: matcher.dfy ===
/** The search side of the viewer: a compiled filter is used only through
    `FindIndex` (the leftmost match span in a text) and `MatchString`, and
    an event matches when its header block or its body does
    (`Event.ContainsRE`). */
module Matching {
  import opened Wrappers
  import opened Text
  import opened Events

  /** The half-open byte range `[start, end)` of a match. */
  datatype Span = Span(start: nat, end: nat)

  /** A compiled regular expression, seen through `FindIndex`: the span of
      its leftmost match in a text, if there is one. */
  type Finder = string -> Option<Span>

  predicate SpanIn(sp: Option<Span>, s: string) {
    sp.Some? ==> sp.value.start <= sp.value.end <= |s|
  }

  /** Every span the finder reports lies inside the text it searched. */
  ghost predicate WellFormed(find: Finder) {
    forall s :: SpanIn(find(s), s)
  }

  /** `MatchString`: it reports a match exactly when `FindIndex` finds one. */
  predicate MatchString(find: Finder, s: string) {
    find(s).Some?
  }

  /** `Event.ContainsRE`: the header block and the body are searched
      separately, so a match never spans from one into the other. */
  predicate ContainsRE(e: Event, find: Finder) {
    MatchString(find, e.header) || MatchString(find, e.body)
  }

  /** A literal, case-sensitive filter: the leftmost occurrence of `pat`. */
  function SubstringFinder(pat: string): (find: Finder)
    ensures WellFormed(find)
    ensures forall s :: find(s).Some? <==> Contains(s, pat)
    ensures forall s :: find(s).Some? ==>
      && find(s).value.end == find(s).value.start + |pat|
      && s[find(s).value.start..find(s).value.end] == pat
      && forall j :: 0 <= j < find(s).value.start ==> !Occurs(pat, s, j)
  {
    (s: string) =>
      match Find(pat, s)
      case Some(i) => Some(Span(i, i + |pat|))
      case None => None
  }

  /** With a literal filter, an event matches exactly when the text occurs
      in its header block or in its body. */
  lemma ContainsSubstring(e: Event, pat: string)
    ensures ContainsRE(e, SubstringFinder(pat)) <==> Contains(e.header, pat) || Contains(e.body, pat)
  {
  }

  /** A literal filter that occurs in neither part of the event does not
      match it, even when it occurs across the end of the header block and
      the start of the body (`SeamIsNotSearched` shows that can happen). */
  lemma NoMatchAcrossHeaderAndBody(e: Event, pat: string)
    requires !Contains(e.header, pat) && !Contains(e.body, pat)
    ensures !ContainsRE(e, SubstringFinder(pat))
  {
    ContainsSubstring(e, pat);
  }

  /** An event whose header and body, read as one text, contain the filter,
      and which the filter still does not match. */
  lemma SeamIsNotSearched()
    ensures var e := Event("", 0, None, "A: 1\n", "x");
      && Contains(e.header + e.body, "\nx")
      && !ContainsRE(e, SubstringFinder("\nx"))
  {
    var e := Event("", 0, None, "A: 1\n", "x");
    assert Occurs("\nx", e.header + e.body, 4);
    assert !Contains(e.body, "\nx");
    forall j | 0 <= j <= |e.header|
      ensures !Occurs("\nx", e.header, j)
    {
      if j + 2 <= |e.header| {
        assert e.header[j + 1] != 'x';
        assert e.header[j..j + 2][1] == e.header[j + 1];
      }
    }
    NoMatchAcrossHeaderAndBody(e, "\nx");
  }
}

=== FILE: numbers.dfy ===
/** Decimal numbers as the viewer reads and writes them: Go's
    `strconv.ParseInt(s, 10, 64)` with its clamping on overflow,
    `strconv.Itoa` for lengths and counts, and the `reNumbers` pattern
    `^\s*\d+\.*\d*\s*$` that decides which header values are styled as
    numbers. */
module Numbers {
  import opened Wrappers

  const MaxUint64: int := 0xFFFF_FFFF_FFFF_FFFF
  const MaxInt64: int := 0x7FFF_FFFF_FFFF_FFFF
  const MinInt64: int := -0x8000_0000_0000_0000

  predicate IsDigit(c: char) {
    '0' <= c <= '9'
  }

  predicate AllDigits(s: string) {
    forall k :: 0 <= k < |s| ==> IsDigit(s[k])
  }

  function DigitValue(c: char): (d: nat)
    requires IsDigit(c)
    ensures d < 10
  {
    (c as int) - ('0' as int)
  }

  function DigitChar(d: nat): (c: char)
    requires d < 10
    ensures IsDigit(c) && DigitValue(c) == d
  {
    ('0' as int + d) as char
  }

  function Pow10(n: nat): (p: nat)
    ensures p >= 1
  {
    if n == 0 then 1 else 10 * Pow10(n - 1)
  }

  lemma {:induction false} Pow10Add(a: nat, b: nat)
    ensures Pow10(a + b) == Pow10(a) * Pow10(b)
  {
    if a > 0 {
      Pow10Add(a - 1, b);
    }
  }

  /** The number a string of decimal digits denotes (most significant digit
      first); the empty string denotes 0. */
  function DecimalValue(s: string): nat
    requires AllDigits(s)
  {
    if s == [] then 0 else DecimalValue(s[..|s| - 1]) * 10 + DigitValue(s[|s| - 1])
  }

  /** Reading the leading digit first gives the same number. */
  lemma {:induction false} DecimalValueCons(c: char, rest: string)
    requires IsDigit(c) && AllDigits(rest)
    ensures AllDigits([c] + rest)
    ensures DecimalValue([c] + rest) == DigitValue(c) * Pow10(|rest|) + DecimalValue(rest)
    decreases |rest|
  {
    var s := [c] + rest;
    if rest != [] {
      var init := rest[..|rest| - 1];
      assert s[..|s| - 1] == [c] + init;
      DecimalValueCons(c, init);
      var x, p, q, last := DigitValue(c), Pow10(|init|), DecimalValue(init), DigitValue(rest[|rest| - 1]);
      assert DecimalValue(s) == (x * p + q) * 10 + last;
      assert DecimalValue(rest) == q * 10 + last by {
        assert rest[..|rest| - 1] == init;
      }
      assert Pow10(|rest|) == p * 10;
      Distribute(x, p, q, last);
    }
  }

  lemma Distribute(x: int, p: int, q: int, last: int)
    ensures (x * p + q) * 10 + last == x * (p * 10) + (q * 10 + last)
  {
  }

  // ---------------------------------------------------------------------------
  // strconv.ParseInt(s, 10, 64)

  /** The error `strconv.ParseInt` reports, if any. */
  datatype Status = Ok | ErrSyntax | ErrRange

  /** `strconv.ParseInt`'s two results: Go keeps the value also when an error
      is reported, and callers may use it. */
  datatype Parsed = Parsed(value: int, status: Status)

  /** The digit loop of `strconv.ParseUint` for base 10 and 64 bits, with
      `acc` the value of the digits already read.  The loop stops at the
      first byte that is not a digit (syntax error, value 0) or at the first
      digit that would take the value past 2^64-1 (range error, value
      2^64-1), whichever comes first. */
  function ScanDigits(s: string, acc: nat): (p: Parsed)
    requires acc <= MaxUint64
    ensures p.status == Ok ==> AllDigits(s) && p.value == acc * Pow10(|s|) + DecimalValue(s) <= MaxUint64
    ensures p.status == ErrSyntax ==> p.value == 0 && !AllDigits(s)
    ensures p.status == ErrRange ==> p.value == MaxUint64
    ensures AllDigits(s) ==> (p.status == ErrRange <==> acc * Pow10(|s|) + DecimalValue(s) > MaxUint64)
    ensures p.status == ErrRange <==> acc * Pow10(|DigitRun(s)|) + DecimalValue(DigitRun(s)) > MaxUint64
    decreases |s|
  {
    if s == [] then Parsed(acc, Ok)
    else if !IsDigit(s[0]) then Parsed(0, ErrSyntax)
    else
      var n := acc * 10 + DigitValue(s[0]);
      ScanDigitsStep(s, acc);
      ScanDigitsStep(DigitRun(s), acc);
      assert DigitRun(s)[1..] == DigitRun(s[1..]);
      if n > MaxUint64 then Parsed(MaxUint64, ErrRange) else ScanDigits(s[1..], n)
  }

  /** The longest run of digits `s` starts with. */
  function DigitRun(s: string): (run: string)
    ensures |run| <= |s| && run == s[..|run|] && AllDigits(run)
    ensures |run| < |s| ==> !IsDigit(s[|run|])
  {
    if s == [] || !IsDigit(s[0]) then [] else [s[0]] + DigitRun(s[1..])
  }

  /** Reading one more digit: the value of the whole run is that of the
      rest, started from the extended accumulator. */
  lemma {:induction false} ScanDigitsStep(s: string, acc: nat)
    requires s != [] && IsDigit(s[0])
    ensures AllDigits(s) ==>
      var n := acc * 10 + DigitValue(s[0]);
      acc * Pow10(|s|) + DecimalValue(s) == n * Pow10(|s| - 1) + DecimalValue(s[1..]) >= n
  {
    var rest := s[1..];
    assert s == [s[0]] + rest;
    if AllDigits(s) {
      var d := DigitValue(s[0]);
      var n := acc * 10 + d;
      var p := Pow10(|rest|);
      DecimalValueCons(s[0], rest);
      assert DecimalValue(s) == d * p + DecimalValue(rest);
      assert Pow10(|s|) == 10 * p;
      Regroup(acc, d, p);
    }
  }

  lemma Regroup(acc: nat, d: nat, p: nat)
    requires p >= 1
    ensures acc * (10 * p) + d * p == (acc * 10 + d) * p >= acc * 10 + d
  {
    assert (acc * 10 + d) * p >= (acc * 10 + d) * 1;
  }

  /** The string without one leading `+` or `-`. */
  function Unsigned(s: string): string
  {
    if |s| > 0 && (s[0] == '+' || s[0] == '-') then s[1..] else s
  }

  /** `s` is an optionally signed, non-empty run of decimal digits. */
  predicate IsDecimal(s: string) {
    |Unsigned(s)| > 0 && AllDigits(Unsigned(s))
  }

  /** The integer a decimal string denotes, of any size. */
  function SignedValue(s: string): int
    requires IsDecimal(s)
  {
    if s[0] == '-' then -(DecimalValue(Unsigned(s)) as int) else DecimalValue(Unsigned(s))
  }

  /** `strconv.ParseInt(s, 10, 64)`.  A well-formed decimal that fits in 64
      bits parses without error to its value.  A well-formed one that does
      not fit is a range error and is clamped to the nearer 64-bit bound.
      Anything else is a syntax error with value 0, except that a run of
      digits overflowing before the first stray byte is still reported as a
      range error with the clamped value. */
  function ParseInt(s: string): (p: Parsed)
    ensures MinInt64 <= p.value <= MaxInt64
    ensures p.status == Ok <==> IsDecimal(s) && MinInt64 <= SignedValue(s) <= MaxInt64
    ensures p.status == Ok ==> p.value == SignedValue(s)
    ensures IsDecimal(s) ==> p.status != ErrSyntax
    ensures p.status == ErrSyntax <==> !IsDecimal(s) && DecimalValue(DigitRun(Unsigned(s))) <= MaxUint64
    ensures p.status == ErrSyntax ==> p.value == 0
    ensures p.status == ErrRange ==> |s| > 0 && p.value == if s[0] == '-' then MinInt64 else MaxInt64
  {
    if s == [] then Parsed(0, ErrSyntax)
    else
      var neg := s[0] == '-';
      var digits := Unsigned(s);
      var u := if digits == [] then Parsed(0, ErrSyntax) else ScanDigits(digits, 0);
      assert IsDecimal(s) ==> u.status == Ok || u.status == ErrRange;
      if u.status == ErrSyntax then Parsed(0, ErrSyntax)
      else if !neg && u.value >= MaxInt64 + 1 then Parsed(MaxInt64, ErrRange)
      else if neg && u.value > MaxInt64 + 1 then Parsed(MinInt64, ErrRange)
      else Parsed(if neg then -u.value else u.value, Ok)
  }

  /** Once the digits read so far exceed 2^64-1, whatever follows them is
      never looked at: the result is a range error. */
  lemma {:induction false} ScanDigitsOverflow(s: string, acc: nat, k: nat)
    requires acc <= MaxUint64 && k <= |s| && AllDigits(s[..k])
    requires acc * Pow10(k) + DecimalValue(s[..k]) > MaxUint64
    ensures ScanDigits(s, acc) == Parsed(MaxUint64, ErrRange)
    decreases k
  {
    assert k > 0;
    var n := acc * 10 + DigitValue(s[0]);
    ScanDigitsStep(s[..k], acc);
    if n <= MaxUint64 {
      assert s[..k][1..] == s[1..][..k - 1];
      ScanDigitsOverflow(s[1..], n, k - 1);
    }
  }

  function Nines(n: nat): (s: string)
    ensures |s| == n && forall k :: 0 <= k < n ==> s[k] == '9'
  {
    if n == 0 then [] else Nines(n - 1) + "9"
  }

  lemma {:induction false} NinesValue(n: nat)
    ensures DecimalValue(Nines(n)) == Pow10(n) - 1
  {
    if n > 0 {
      NinesValue(n - 1);
      assert Nines(n)[..n - 1] == Nines(n - 1);
    }
  }

  /** Overflow is noticed before the stray byte at the end, so Go reports a
      range error and the clamped maximum rather than a syntax error. */
  lemma ParseIntOverflowBeforeJunk()
    ensures ParseInt(Nines(20) + "x") == Parsed(MaxInt64, ErrRange)
  {
    var s := Nines(20) + "x";
    assert s[..20] == Nines(20);
    NinesValue(20);
    Pow10Twenty();
    ScanDigitsOverflow(s, 0, 20);
    assert s[0] == Nines(20)[0];
    assert Unsigned(s) == s;
  }

  /** Malformed text of at most twenty bytes has at most nineteen digits
      before its first stray byte, too few to overflow, so it is always a
      syntax error with value 0. */
  lemma ShortMalformedIsSyntaxError(s: string)
    requires !IsDecimal(s) && |s| <= 20
    ensures ParseInt(s) == Parsed(0, ErrSyntax)
  {
    var run := DigitRun(Unsigned(s));
    if |run| == |Unsigned(s)| {
      assert run == Unsigned(s);
    }
    assert |run| <= 19;
    DecimalValueBelow(run);
    Pow10Monotone(|run|, 19);
    Pow10Twenty();
  }

  lemma {:induction false} DecimalValueBelow(s: string)
    requires AllDigits(s)
    ensures DecimalValue(s) < Pow10(|s|)
  {
    if s != [] {
      DecimalValueBelow(s[..|s| - 1]);
    }
  }

  lemma {:induction false} Pow10Monotone(a: nat, b: nat)
    requires a <= b
    ensures Pow10(a) <= Pow10(b)
    decreases b
  {
    if a < b {
      Pow10Monotone(a, b - 1);
    }
  }

  lemma Pow10Twenty()
    ensures Pow10(20) == 100_000_000_000_000_000_000
  {
    assert Pow10(5) == 100_000;
    Pow10Add(5, 5);
    Pow10Add(10, 10);
  }

  // ---------------------------------------------------------------------------
  // strconv.Itoa for non-negative values

  /** The shortest decimal spelling of `n`. */
  function FormatNat(n: nat): (s: string)
    ensures |s| > 0 && AllDigits(s)
    ensures DecimalValue(s) == n
    ensures |s| > 1 ==> s[0] != '0'
  {
    if n < 10 then [DigitChar(n)]
    else
      var s := FormatNat(n / 10) + [DigitChar(n % 10)];
      assert s[..|s| - 1] == FormatNat(n / 10);
      s
  }

  /** Parsing reads back what formatting wrote. */
  lemma ParseFormatNat(n: nat)
    requires n <= MaxInt64
    ensures ParseInt(FormatNat(n)) == Parsed(n, Ok)
  {
    var s := FormatNat(n);
    assert IsDigit(s[0]);
    assert Unsigned(s) == s;
  }

  // ---------------------------------------------------------------------------
  // reNumbers = ^\s*\d+\.*\d*\s*$

  /** `\s` of Go's regular expressions: tab, newline, form feed, carriage
      return, space. */
  predicate RegexSpace(c: char) {
    c == '\t' || c == '\n' || c == '\U{0C}' || c == '\r' || c == ' '
  }

  predicate IsDot(c: char) {
    c == '.'
  }

  /** The end of the run of bytes in `inClass` that starts at `i`. */
  function SkipWhile(inClass: char -> bool, s: string, i: nat): (j: nat)
    requires i <= |s|
    ensures i <= j <= |s|
    ensures forall k :: i <= k < j ==> inClass(s[k])
    ensures j < |s| ==> !inClass(s[j])
    decreases |s| - i
  {
    if i == |s| || !inClass(s[i]) then i else SkipWhile(inClass, s, i + 1)
  }

  /** A run that ends where `inClass` stops holding is the run found. */
  lemma SkipWhileExact(inClass: char -> bool, s: string, i: nat, j: nat)
    requires i <= j <= |s|
    requires forall k :: i <= k < j ==> inClass(s[k])
    requires j < |s| ==> !inClass(s[j])
    ensures SkipWhile(inClass, s, i) == j
  {
  }

  /** The value matches `reNumbers`, checked by consuming each part of the
      pattern greedily. */
  predicate IsNumeric(v: string) {
    var a := SkipWhile(RegexSpace, v, 0);
    var b := SkipWhile(IsDigit, v, a);
    var c := SkipWhile(IsDot, v, b);
    var d := SkipWhile(IsDigit, v, c);
    a < b && SkipWhile(RegexSpace, v, d) == |v|
  }

  /** `v` splits as `\s*` `\d+` `\.*` `\d*` `\s*` at the given cut points. */
  predicate NumericShape(v: string, a: nat, b: nat, c: nat, d: nat) {
    && a < b <= c <= d <= |v|
    && (forall k :: 0 <= k < a ==> RegexSpace(v[k]))
    && (forall k :: a <= k < b ==> IsDigit(v[k]))
    && (forall k :: b <= k < c ==> IsDot(v[k]))
    && (forall k :: c <= k < d ==> IsDigit(v[k]))
    && (forall k :: d <= k < |v| ==> RegexSpace(v[k]))
  }

  /** The greedy check accepts exactly the values the pattern matches. */
  lemma IsNumericIff(v: string)
    ensures IsNumeric(v) <==> exists a, b, c, d :: NumericShape(v, a, b, c, d)
  {
    if IsNumeric(v) {
      IsNumericSound(v);
    }
    if exists a, b, c, d :: NumericShape(v, a, b, c, d) {
      var a, b, c, d :| NumericShape(v, a, b, c, d);
      IsNumericComplete(v, a, b, c, d);
    }
  }

  /** What the greedy check accepts splits as the pattern says. */
  lemma IsNumericSound(v: string)
    requires IsNumeric(v)
    ensures var a := SkipWhile(RegexSpace, v, 0);
      var b := SkipWhile(IsDigit, v, a);
      var c := SkipWhile(IsDot, v, b);
      NumericShape(v, a, b, c, SkipWhile(IsDigit, v, c))
  {
  }

  /** Every split the pattern allows is found by the greedy check. */
  lemma IsNumericComplete(v: string, a: nat, b: nat, c: nat, d: nat)
    requires NumericShape(v, a, b, c, d)
    ensures IsNumeric(v)
  {
    SkipWhileExact(RegexSpace, v, 0, a);
    if b < c {
      SkipWhileExact(IsDigit, v, a, b);
      SkipWhileExact(IsDot, v, b, c);
      SkipWhileExact(IsDigit, v, c, d);
    } else {
      SkipWhileExact(IsDigit, v, a, d);
      SkipWhileExact(IsDot, v, d, d);
      SkipWhileExact(IsDigit, v, d, d);
    }
    SkipWhileExact(RegexSpace, v, d, |v|);
  }
}

=== FILE: order.dfy ===
/** Byte-wise ordering of strings, as Go's `<` on strings and
    `slices.Sort` use it, and the sorted key list of a finite set. */
module Order {

  /** `a` sorts strictly before `b`: at the first differing byte `a` has the
      smaller one, or `a` is a proper prefix of `b`. */
  predicate Less(a: string, b: string)
    decreases |a|
  {
    |b| > 0 && (|a| == 0 || a[0] < b[0] || (a[0] == b[0] && Less(a[1..], b[1..])))
  }

  lemma {:induction false} LessIrreflexive(a: string)
    ensures !Less(a, a)
    decreases |a|
  {
    if |a| > 0 {
      LessIrreflexive(a[1..]);
    }
  }

  lemma {:induction false} LessAsymmetric(a: string, b: string)
    ensures Less(a, b) ==> !Less(b, a)
    decreases |a|
  {
    if |a| > 0 && |b| > 0 && a[0] == b[0] {
      LessAsymmetric(a[1..], b[1..]);
    }
  }

  lemma {:induction false} LessTransitive(a: string, b: string, c: string)
    requires Less(a, b) && Less(b, c)
    ensures Less(a, c)
    decreases |a|
  {
    if |a| > 0 && a[0] == b[0] && b[0] == c[0] {
      LessTransitive(a[1..], b[1..], c[1..]);
    }
  }

  /** Any two distinct strings are ordered one way or the other. */
  lemma {:induction false} LessTotal(a: string, b: string)
    ensures a == b || Less(a, b) || Less(b, a)
    decreases |a|
  {
    if |a| > 0 && |b| > 0 && a[0] == b[0] {
      LessTotal(a[1..], b[1..]);
      if a[1..] == b[1..] {
        assert a == [a[0]] + a[1..] && b == [b[0]] + b[1..];
      }
    }
  }

  lemma LessAsymmetricAll()
    ensures forall a, b :: Less(a, b) ==> !Less(b, a)
  {
    forall a, b
      ensures Less(a, b) ==> !Less(b, a)
    {
      LessAsymmetric(a, b);
    }
  }

  /** `m` is the least element of `s`. */
  predicate IsLeast(m: string, s: set<string>) {
    m in s && forall x :: x in s && x != m ==> Less(m, x)
  }

  lemma {:induction false} LeastExists(s: set<string>)
    requires s != {}
    ensures exists m :: IsLeast(m, s)
    decreases |s|
  {
    var x :| x in s;
    if s != {x} {
      var s' := s - {x};
      LeastExists(s');
      var m' :| IsLeast(m', s');
      LessTotal(x, m');
      if Less(x, m') {
        forall y | y in s && y != x
          ensures Less(x, y)
        {
          if y != m' {
            LessTransitive(x, m', y);
          }
        }
        assert IsLeast(x, s);
      } else {
        assert IsLeast(m', s);
      }
    } else {
      assert IsLeast(x, s);
    }
  }

  /** The least element of a non-empty set. */
  function Least(s: set<string>): (m: string)
    requires s != {}
    ensures IsLeast(m, s)
  {
    LeastExists(s);
    LessAsymmetricAll();
    var m :| IsLeast(m, s);
    m
  }

  /** Strictly ascending: hence also free of duplicates. */
  predicate StrictlySorted(xs: seq<string>) {
    forall i, j :: 0 <= i < j < |xs| ==> Less(xs[i], xs[j])
  }

  /** The elements of a finite set in strictly ascending order: the list
      `slices.Sort` produces from the keys of a Go map. */
  function SortedKeys(s: set<string>): (r: seq<string>)
    ensures StrictlySorted(r)
    ensures forall x :: x in r <==> x in s
    ensures |r| == |s|
    decreases |s|
  {
    if s == {} then []
    else
      var m := Least(s);
      var rest := SortedKeys(s - {m});
      assert StrictlySorted([m] + rest) by {
        forall j | 0 <= j < |rest|
          ensures Less(m, rest[j])
        {
          assert rest[j] in s - {m};
        }
        assert forall i, j :: 0 <= i < j < |[m] + rest| && i > 0 ==>
          ([m] + rest)[i] == rest[i - 1] && ([m] + rest)[j] == rest[j - 1];
      }
      [m] + rest
  }

  /** There is one strictly ascending listing of a set, so the header order
      does not depend on the order in which the map hands out its keys. */
  lemma {:induction false} SortedUnique(a: seq<string>, b: seq<string>)
    requires StrictlySorted(a) && StrictlySorted(b)
    requires forall x :: x in a <==> x in b
    ensures a == b
    decreases |a|
  {
    assert a != [] ==> a[0] in b;
    assert b != [] ==> b[0] in a;
    if a != [] && b != [] {
      assert a[0] == b[0] by {
        if a[0] != b[0] {
          assert a[0] in a && b[0] in b;
          var i :| 0 <= i < |b| && b[i] == a[0];
          var j :| 0 <= j < |a| && a[j] == b[0];
          assert i > 0 && j > 0;
          assert Less(b[0], b[i]) && Less(a[0], a[j]);
          LessAsymmetric(a[0], b[0]);
        }
      }
      forall x
        ensures x in a[1..] <==> x in b[1..]
      {
        if x in a[1..] {
          var i :| 0 <= i < |a[1..]| && a[1..][i] == x;
          assert Less(a[0], a[i + 1]);
          LessIrreflexive(x);
          assert x in a && x in b;
          var k :| 0 <= k < |b| && b[k] == x;
          assert k != 0;
          assert b[1..][k - 1] == x;
        }
        if x in b[1..] {
          var i :| 0 <= i < |b[1..]| && b[1..][i] == x;
          assert Less(b[0], b[i + 1]);
          LessIrreflexive(x);
          assert x in b && x in a;
          var k :| 0 <= k < |a| && a[k] == x;
          assert k != 0;
          assert a[1..][k - 1] == x;
        }
      }
      SortedUnique(a[1..], b[1..]);
      assert a == [a[0]] + a[1..] && b == [b[0]] + b[1..];
    }
  }
}

=== FILE: parse.dfy ===
/** `decode` in parse.go: the events of a JSON event log, in order, and the
    names of the header keys seen in it (used for suggestions in the filter
    field).  The JSON decoder is abstracted as the sequence of what its
    successive `Decode` calls return; the end of the sequence is `io.EOF`. */
module Decoding {
  import opened Wrappers
  import opened Events

  /** The result of one `Decode` call: a record, or an error other than
      `io.EOF`. */
  datatype Item = Object(fields: Record) | Failed(err: string)

  /** The number of records before the first error (all of them when there
      is none). */
  function Decodable(stream: seq<Item>): (n: nat)
    ensures n <= |stream|
    ensures forall i :: 0 <= i < n ==> stream[i].Object?
    ensures n < |stream| ==> stream[n].Failed?
  {
    if stream == [] || stream[0].Failed? then 0 else 1 + Decodable(stream[1..])
  }

  /** The header names `decode` records for one record: the keys left in the
      map once `NewEvent` has deleted the body key, minus `Content-Length`
      and the suppressed headers. */
  function RecordedKeys(rec: Record, ignore: set<string>): set<string>
  {
    set k | k in AfterNewEvent(rec) && !(k in ignore || k == ContentLength)
  }

  /** The union of the recorded names over a run of records. */
  function SeenHeaders(items: seq<Item>, ignore: set<string>): set<string>
  {
    if items == [] then {}
    else
      SeenHeaders(items[..|items| - 1], ignore)
        + match items[|items| - 1]
          case Object(rec) => RecordedKeys(rec, ignore)
          case Failed(_) => {}
  }

  /** `decode(r, length)`.  `stale` is the package-level `headers` map before
      the call; `length` is only the capacity hint of the event slice (the
      line count `Parse` passes, so never negative).
      - With no error the result is one `NewEvent` per record, in order.
      - At the first error the result is that error and no events.
      - Either way the returned `headers` is what the call left in the
        package-level map: the names recorded from the records decoded
        before the first error, nothing from `stale`. */
  method Decode(stream: seq<Item>, ignore: set<string>, length: nat, stale: set<string>)
    returns (events: Result<seq<Event>, string>, headers: set<string>)
    ensures events.Success? <==> Decodable(stream) == |stream|
    ensures events.Success? ==> events.value == EventsOf(stream, ignore)
    ensures events.Failure? ==> events.error == stream[Decodable(stream)].err
    ensures headers == SeenHeaders(stream[..Decodable(stream)], ignore)
  {
    var list: seq<Event> := [];
    headers := {};
    ghost var n := Decodable(stream);
    ghost var expected := EventsOf(stream[..n], ignore);
    var i := 0;
    while i < |stream|
      invariant i <= n
      invariant list == expected[..i]
      invariant headers == SeenHeaders(stream[..i], ignore)
    {
      match stream[i] {
        case Failed(err) =>
          assert i == n;
          return Failure(err), headers;
        case Object(ev) =>
          assert i < n;
          TakeOneMore(expected, i);
          assert expected[i] == NewEvent(ev, ignore);
          list := list + [NewEvent(ev, ignore)];
          SeenHeadersSnoc(stream, i, ignore);
          headers := headers + RecordedKeys(ev, ignore);
      }
      i := i + 1;
    }
    assert stream[..n] == stream;
    events := Success(list);
  }

  /** The events of a run of records, one `NewEvent` each, in order. */
  function EventsOf(items: seq<Item>, ignore: set<string>): (events: seq<Event>)
    requires forall j :: 0 <= j < |items| ==> items[j].Object?
    ensures |events| == |items|
  {
    seq(|items|, j requires 0 <= j < |items| => NewEvent(items[j].fields, ignore))
  }

  lemma TakeOneMore<T>(xs: seq<T>, i: nat)
    requires i < |xs|
    ensures xs[..i + 1] == xs[..i] + [xs[i]]
  {
  }

  lemma SeenHeadersSnoc(stream: seq<Item>, i: nat, ignore: set<string>)
    requires i < |stream| && stream[i].Object?
    ensures SeenHeaders(stream[..i + 1], ignore) == SeenHeaders(stream[..i], ignore) + RecordedKeys(stream[i].fields, ignore)
  {
    assert stream[..i + 1][..i] == stream[..i];
  }

  /** A recorded name is exactly a header-block key of its record: the body
      key never shows up, because `NewEvent` removed it from the map. */
  lemma RecordedKeysAreHeaderKeys(rec: Record, ignore: set<string>)
    ensures RecordedKeys(rec, ignore) == HeaderKeys(rec, ignore)
    ensures BodyKey !in RecordedKeys(rec, ignore)
  {
  }

  /** After `decode`, a name is in `headers` exactly when it is a
      header-block key of one of the records decoded before the first
      error. */
  lemma {:induction false} SeenHeadersIff(items: seq<Item>, ignore: set<string>, k: string)
    ensures k in SeenHeaders(items, ignore) <==>
      exists i :: 0 <= i < |items| && items[i].Object? && k in HeaderKeys(items[i].fields, ignore)
    decreases |items|
  {
    if items != [] {
      var n := |items|;
      var init := items[..n - 1];
      SeenHeadersIff(init, ignore, k);
      if items[n - 1].Object? {
        RecordedKeysAreHeaderKeys(items[n - 1].fields, ignore);
      }
      if exists i :: 0 <= i < n - 1 && init[i].Object? && k in HeaderKeys(init[i].fields, ignore) {
        var i :| 0 <= i < n - 1 && init[i].Object? && k in HeaderKeys(init[i].fields, ignore);
        assert items[i] == init[i];
      }
      if exists i :: 0 <= i < n && items[i].Object? && k in HeaderKeys(items[i].fields, ignore) {
        var i :| 0 <= i < n && items[i].Object? && k in HeaderKeys(items[i].fields, ignore);
        if i < n - 1 {
          assert init[i] == items[i];
        }
      }
    }
  }

  /** Neither the body key nor `Content-Length` is ever suggested. */
  lemma {:induction false} SeenHeadersExclude(items: seq<Item>, ignore: set<string>)
    ensures BodyKey !in SeenHeaders(items, ignore)
    ensures ContentLength !in SeenHeaders(items, ignore)
    ensures forall k :: k in ignore ==> k !in SeenHeaders(items, ignore)
    decreases |items|
  {
    if items != [] {
      SeenHeadersExclude(items[..|items| - 1], ignore);
    }
  }

  /** A stream that fails at once yields the error, no events, and an empty
      `headers`, whatever the previous call left there. */
  lemma FirstItemFails(err: string, tail: seq<Item>, ignore: set<string>)
    ensures Decodable([Failed(err)] + tail) == 0
    ensures var s := [Failed(err)] + tail; SeenHeaders(s[..Decodable(s)], ignore) == {}
  {
  }
}

=== FILE: render.dfy ===
/** `Event.FormatRE`: the styled text of one event for the detail view,
    with the span the active filter finds emphasised, header keys and
    numeric values coloured, and a `Content-Length:` pseudo-header computed
    from the body. */
module Render {
  import opened Wrappers
  import opened Text
  import opened Numbers
  import opened Events
  import opened Matching

  /** The colour tags taken from the current theme (`selected`,
      `headerTitle`, `numbers`); the model treats them as arbitrary
      strings. */
  datatype Palette = Palette(selected: string, headerTitle: string, numbers: string)

  /** Resets colours and attributes. */
  const ClearLine := "[-:-:-]"
  /** Reverse-bold on and off around the matched span. */
  const EmphasisOn := "[::rb]"
  const EmphasisOff := "[::-]"
  /** Default colour for a value that is not a number. */
  const PlainValue := "[-]"
  const ContentLengthTitle := "Content-Length:"

  /** The active filter: `None` when no regular expression is compiled. */
  type Matcher = Option<Finder>

  ghost predicate ValidMatcher(m: Matcher) {
    m.Some? ==> WellFormed(m.value)
  }

  /** How one piece of text is drawn. */
  datatype Styled =
      /** around the first match: context, match, rest */
    | Highlight(pre: string, hit: string, post: string)
      /** as is: an indented continuation line */
    | Verbatim(text: string)
      /** a header line split at its first `": "`; `separated` is false when
          there is none, and then the whole line is the key */
    | Field(key: string, value: string, separated: bool, numeric: bool)

  /** The raw text a styled piece stands for. */
  function Source(st: Styled): string
  {
    match st
    case Highlight(pre, hit, post) => pre + hit + post
    case Verbatim(text) => text
    case Field(key, value, separated, _) => if separated then key + ": " + value else key
  }

  /** The markup written for a styled piece. */
  function Markup(st: Styled, pal: Palette): string
  {
    match st
    case Highlight(pre, hit, post) =>
      pal.selected + pre + EmphasisOn + hit + EmphasisOff + post + ClearLine
    case Verbatim(text) => text
    case Field(key, value, _, numeric) =>
      pal.headerTitle + key + ":" + (if numeric then pal.numbers else PlainValue) + " " + value + ClearLine
  }

  /** `filterFormat`'s decision: the text cut around the span the filter
      finds, or nothing when there is no filter or no match. */
  function Highlighting(text: string, m: Matcher): (h: Option<Styled>)
    requires ValidMatcher(m)
    ensures h.Some? <==> m.Some? && MatchString(m.value, text)
    ensures h.Some? ==> h.value.Highlight? && Source(h.value) == text
    ensures h.Some? ==>
      var sp := m.value(text).value;
      h.value.pre == text[..sp.start] && h.value.hit == text[sp.start..sp.end]
  {
    if m.None? then None
    else
      match m.value(text)
      case None => None
      case Some(sp) =>
        assert SpanIn(m.value(text), text);
        assert text == text[..sp.start] + text[sp.start..sp.end] + text[sp.end..];
        Some(Highlight(text[..sp.start], text[sp.start..sp.end], text[sp.end..]))
  }

  /** How a header line is drawn: highlighted when the filter matches it,
      else verbatim when it starts with a tab, else as key and value split
      at the first `": "`, the value marked numeric when it matches
      `reNumbers`.  Nothing of the line is lost or duplicated. */
  function ClassifyLine(line: string, m: Matcher): (st: Styled)
    requires ValidMatcher(m)
    ensures Source(st) == line
    ensures st.Highlight? <==> m.Some? && MatchString(m.value, line)
    ensures st.Verbatim? <==> !st.Highlight? && |line| > 0 && line[0] == '\t'
    ensures st.Field? ==> st.numeric == IsNumeric(st.value)
    ensures st.Field? && !st.separated ==> st.value == [] && !Contains(line, ": ")
    ensures st.Field? && st.separated ==> forall j :: 0 <= j < |st.key| ==> !Occurs(": ", line, j)
  {
    match Highlighting(line, m)
    case Some(h) => h
    case None =>
      if |line| > 0 && line[0] == '\t' then Verbatim(line)
      else
        var c := CutAt(line, ": ");
        Field(c.before, c.after, c.found, IsNumeric(c.after))
  }

  /** The markup of each header line, in order. */
  function RenderedLines(lines: seq<string>, m: Matcher, pal: Palette): (out: seq<string>)
    requires ValidMatcher(m)
    ensures |out| == |lines|
  {
    seq(|lines|, i requires 0 <= i < |lines| => Markup(ClassifyLine(lines[i], m), pal))
  }

  lemma RenderedLinesAt(lines: seq<string>, m: Matcher, pal: Palette, i: nat)
    requires ValidMatcher(m) && i < |lines|
    ensures RenderedLines(lines, m, pal)[i] == Markup(ClassifyLine(lines[i], m), pal)
  {
  }

  /** The header part: the rendered lines separated by single newlines. */
  function HeaderPart(e: Event, m: Matcher, pal: Palette): string
    requires ValidMatcher(m)
  {
    Join(RenderedLines(ScanLines(e.header), m, pal))
  }

  /** The pseudo-header giving the body's length in bytes, ended by the
      newline that separates it from the body. */
  function ContentLengthLine(body: string, pal: Palette): string
  {
    ContentLengthRow(body, pal) + "\n"
  }

  /** The pseudo-header itself, without the newline. */
  function ContentLengthRow(body: string, pal: Palette): string
  {
    pal.headerTitle + ContentLengthTitle + pal.numbers + FormatNat(|body|) + ClearLine
  }

  /** The body: highlighted like a header line when the filter matches it,
      else as is. */
  function BodyMarkup(body: string, m: Matcher, pal: Palette): string
    requires ValidMatcher(m)
  {
    match Highlighting(body, m)
    case Some(h) => Markup(h, pal)
    case None => body
  }

  /** The whole output of `FormatRE`, as the code writes it: the header part,
      then, for a non-empty body, the length pseudo-header and the body.  No
      newline is written between the last header line and the
      pseudo-header. */
  function Render(e: Event, m: Matcher, pal: Palette): string
    requires ValidMatcher(m)
  {
    HeaderPart(e, m, pal)
      + if e.body == [] then [] else ContentLengthLine(e.body, pal) + BodyMarkup(e.body, m, pal)
  }

  /** One header line drawn the way the loop in `FormatRE` draws it. */
  method DrawLine(line: string, m: Matcher, pal: Palette) returns (piece: string)
    requires ValidMatcher(m)
    ensures piece == Markup(ClassifyLine(line, m), pal)
  {
    var h := Highlighting(line, m);
    if h.Some? {
      piece := Markup(h.value, pal);
    } else if |line| > 0 && line[0] == '\t' {
      piece := line;
    } else {
      var c := CutAt(line, ": ");
      piece := pal.headerTitle + c.before + ":";
      if IsNumeric(c.after) {
        piece := piece + pal.numbers;
      } else {
        piece := piece + PlainValue;
      }
      piece := piece + " " + c.after + ClearLine;
    }
  }

  /** Drawing one more line appends it after a newline, or alone when it is
      the first. */
  lemma {:induction false} RenderedLinesSnoc(done: seq<string>, line: string, m: Matcher, pal: Palette)
    requires ValidMatcher(m)
    ensures Join(RenderedLines(done + [line], m, pal)) ==
      var piece := Markup(ClassifyLine(line, m), pal);
      if done == [] then piece else Join(RenderedLines(done, m, pal)) + "\n" + piece
  {
    var piece := Markup(ClassifyLine(line, m), pal);
    assert RenderedLines(done + [line], m, pal) == RenderedLines(done, m, pal) + [piece];
    JoinSnoc(RenderedLines(done, m, pal), piece);
  }

  /** What `FormatRE` writes after the header lines: nothing for an empty
      body, else the length pseudo-header and the body. */
  method DrawBody(body: string, m: Matcher, pal: Palette) returns (out: string)
    requires ValidMatcher(m)
    ensures out == if body == [] then [] else ContentLengthLine(body, pal) + BodyMarkup(body, m, pal)
  {
    out := [];
    if body != [] {
      out := out + pal.headerTitle + ContentLengthTitle + pal.numbers + FormatNat(|body|) + ClearLine;
      assert out == ContentLengthRow(body, pal);
      out := out + "\n";
      var h := Highlighting(body, m);
      if h.Some? {
        out := out + Markup(h.value, pal);
      } else {
        out := out + body;
      }
    }
  }

  /** One more scanned line keeps the lines seen so far and the lines still
      to come adding up to the whole scan. */
  lemma ScanOneMore(text: string, done: seq<string>, rest: string)
    requires rest != [] && ScanLines(text) == done + ScanLines(rest)
    ensures ScanLines(text) == (done + [NextLine(rest).0]) + ScanLines(NextLine(rest).1)
  {
    var line, next := NextLine(rest).0, NextLine(rest).1;
    assert ScanLines(rest) == [line] + ScanLines(next);
    assert done + ([line] + ScanLines(next)) == (done + [line]) + ScanLines(next);
  }

  /** The header loop of `FormatRE`: scan the header block line by line,
      writing a newline before every line but the first. */
  method DrawHeader(header: string, m: Matcher, pal: Palette) returns (out: string)
    requires ValidMatcher(m)
    ensures out == Join(RenderedLines(ScanLines(header), m, pal))
  {
    out := [];
    var rest := header;
    ghost var done: seq<string> := [];
    var firstLine := true;
    while rest != []
      invariant ScanLines(header) == done + ScanLines(rest)
      invariant firstLine <==> done == []
      invariant out == Join(RenderedLines(done, m, pal))
      decreases |rest|
    {
      var (line, next) := NextLine(rest);
      ScanOneMore(header, done, rest);
      if firstLine {
        firstLine := false;
      } else {
        out := out + "\n";
      }
      var piece := DrawLine(line, m, pal);
      RenderedLinesSnoc(done, line, m, pal);
      out := out + piece;
      done := done + [line];
      rest := next;
    }
    assert ScanLines(rest) == [];
    assert done == ScanLines(header);
  }

  /** `Event.FormatRE`: the header lines, then the length pseudo-header and
      the body. */
  method FormatRE(e: Event, m: Matcher, pal: Palette) returns (out: string)
    requires ValidMatcher(m)
    ensures out == Render(e, m, pal)
  {
    out := DrawHeader(e.header, m, pal);
    var tail := DrawBody(e.body, m, pal);
    out := out + tail;
  }

  // ---------------------------------------------------------------------------
  // Properties of the rendering

  /** No colour tag of the theme contains a newline. */
  predicate NoNewLine(pal: Palette) {
    '\n' !in pal.selected && '\n' !in pal.headerTitle && '\n' !in pal.numbers
  }

  /** A header line without newlines or carriage returns is drawn as one
      non-empty display line. */
  lemma MarkupIsPlain(line: string, m: Matcher, pal: Palette)
    requires ValidMatcher(m) && NoNewLine(pal)
    requires '\n' !in line && '\r' !in line
    ensures var out := Markup(ClassifyLine(line, m), pal); PlainLine(out) && out != []
  {
    StyledIsPlain(ClassifyLine(line, m), pal);
  }

  /** A piece whose text has no line break is drawn without one, and is
      never drawn empty unless it is an empty verbatim line (a key without
      separator has no value of its own). */
  lemma StyledIsPlain(st: Styled, pal: Palette)
    requires NoNewLine(pal) && '\n' !in Source(st) && '\r' !in Source(st)
    requires st.Verbatim? ==> st.text != []
    requires st.Field? && !st.separated ==> st.value == []
    ensures PlainLine(Markup(st, pal)) && Markup(st, pal) != []
  {
    match st {
      case Highlight(pre, hit, post) =>
        var out := Markup(st, pal);
        assert out == (pal.selected + pre + EmphasisOn + hit + EmphasisOff + post) + ClearLine;
        assert out[|out| - 1] == ']';
      case Verbatim(text) =>
        assert text[|text| - 1] in text;
      case Field(key, value, separated, numeric) =>
        var out := Markup(st, pal);
        var mid := if numeric then pal.numbers else PlainValue;
        assert '\n' !in key && '\n' !in value by {
          if separated {
            assert Source(st) == key + ": " + value;
          }
        }
        assert out == (pal.headerTitle + key + ":" + mid + " " + value) + ClearLine;
        assert out[|out| - 1] == ']';
    }
  }

  /** Every rendered line of a carriage-return-free header block is one
      non-empty display line. */
  lemma RenderedLinesPlain(header: string, m: Matcher, pal: Palette)
    requires ValidMatcher(m) && NoNewLine(pal) && '\r' !in header
    ensures forall i :: 0 <= i < |ScanLines(header)| ==>
      PlainLine(RenderedLines(ScanLines(header), m, pal)[i]) && RenderedLines(ScanLines(header), m, pal)[i] != []
  {
    var lines := ScanLines(header);
    var out := RenderedLines(lines, m, pal);
    ScanLinesWithout(header, '\r');
    forall i | 0 <= i < |out|
      ensures PlainLine(out[i]) && out[i] != []
    {
      RenderedLinesAt(lines, m, pal, i);
      MarkupIsPlain(lines[i], m, pal);
    }
  }

  /** Each header line becomes exactly one display line of the header part,
      in order: scanning the rendered header part gives back the rendered
      lines, the markup of the header lines one by one. */
  lemma HeaderLinesSeparated(e: Event, m: Matcher, pal: Palette)
    requires ValidMatcher(m) && NoNewLine(pal) && '\r' !in e.header
    ensures ScanLines(HeaderPart(e, m, pal)) == RenderedLines(ScanLines(e.header), m, pal)
    ensures forall i :: 0 <= i < |ScanLines(e.header)| ==>
      ScanLines(HeaderPart(e, m, pal))[i] == Markup(ClassifyLine(ScanLines(e.header)[i], m), pal)
  {
    var lines := ScanLines(e.header);
    var out := RenderedLines(lines, m, pal);
    RenderedLinesPlain(e.header, m, pal);
    ScanLinesJoin(out);
    forall i | 0 <= i < |lines|
      ensures out[i] == Markup(ClassifyLine(lines[i], m), pal)
    {
      RenderedLinesAt(lines, m, pal, i);
    }
  }

  /** The header part never ends in a newline: the last header line is not
      terminated. */
  lemma HeaderPartUnterminated(e: Event, m: Matcher, pal: Palette)
    requires ValidMatcher(m) && NoNewLine(pal) && '\r' !in e.header
    ensures var h := HeaderPart(e, m, pal); h == [] <==> ScanLines(e.header) == []
    ensures var h := HeaderPart(e, m, pal); h != [] ==> h[|h| - 1] != '\n'
  {
    var lines := ScanLines(e.header);
    var out := RenderedLines(lines, m, pal);
    if lines != [] {
      var n := |lines|;
      var h := HeaderPart(e, m, pal);
      RenderedLinesPlain(e.header, m, pal);
      JoinEndsWithLast(out);
      var last := out[n - 1];
      assert h[|h| - 1] == last[|last| - 1] by {
        assert h[|h| - |last|..][|last| - 1] == h[|h| - 1];
      }
      assert last[|last| - 1] in last;
    }
  }

  /** Without a filter nothing is emphasised: no header line is drawn as a
      match and the body is written as it is. */
  lemma NoFilterNoEmphasis(e: Event, pal: Palette)
    ensures forall line :: !ClassifyLine(line, None).Highlight?
    ensures e.body != [] ==> Render(e, None, pal) == HeaderPart(e, None, pal) + ContentLengthLine(e.body, pal) + e.body
    ensures e.body == [] ==> Render(e, None, pal) == HeaderPart(e, None, pal)
  {
  }

  /** A body the filter does not match ends the output unchanged, right
      after the length pseudo-header's newline; the pseudo-header's digits
      read back as the body's length. */
  lemma BodyFollowsContentLength(e: Event, m: Matcher, pal: Palette)
    requires ValidMatcher(m) && e.body != [] && |e.body| <= MaxInt64
    ensures var out := Render(e, m, pal);
      && |ContentLengthLine(e.body, pal)| + |e.body| <= |out|
      && (!(m.Some? && MatchString(m.value, e.body)) ==>
            out[|out| - |e.body| - 1..] == "\n" + e.body)
    ensures ParseInt(FormatNat(|e.body|)) == Parsed(|e.body|, Ok)
  {
    ParseFormatNat(|e.body|);
    var out := Render(e, m, pal);
    var head := HeaderPart(e, m, pal) + ContentLengthRow(e.body, pal);
    if !(m.Some? && MatchString(m.value, e.body)) {
      assert out == head + ("\n" + e.body);
    } else {
      var h := Highlighting(e.body, m).value;
      assert |Markup(h, pal)| >= |Source(h)|;
    }
  }

  /** As the code writes it, the length pseudo-header has no display line of
      its own: it is appended to the last header line, and the header part
      and pseudo-header scan as exactly as many lines as the header block
      had. */
  lemma ContentLengthSharesLastLine(e: Event, m: Matcher, pal: Palette)
    requires ValidMatcher(m) && NoNewLine(pal) && '\r' !in e.header
    requires ScanLines(e.header) != [] && e.body != []
    ensures var glued := GlueLast(RenderedLines(ScanLines(e.header), m, pal), ContentLengthRow(e.body, pal));
      && Render(e, m, pal) == Join(glued) + "\n" + BodyMarkup(e.body, m, pal)
      && ScanLines(Join(glued)) == glued
      && |glued| == |ScanLines(e.header)|
  {
    var lines := RenderedLines(ScanLines(e.header), m, pal);
    var row := ContentLengthRow(e.body, pal);
    JoinAppendLast(lines, row);
    RenderedLinesPlain(e.header, m, pal);
    RowIsPlain(e.body, pal);
    ScanLinesJoinGlued(lines, row);
  }

  /** The pseudo-header is one display line. */
  lemma RowIsPlain(body: string, pal: Palette)
    requires NoNewLine(pal)
    ensures PlainLine(ContentLengthRow(body, pal)) && ContentLengthRow(body, pal) != []
  {
  }
}

=== FILE: text.dfy ===
/** Byte-string helpers the viewer takes from Go's standard library:
    `strings.TrimSpace`, the `"\n" -> "\n\t"` replacer, `bytes.Cut`,
    `bufio.ScanLines` and `strings.Join`.  A `char` stands for one byte of a
    Go string, so `|s|` is Go's `len(s)`. */
module Text {
  import opened Wrappers

  // ---------------------------------------------------------------------------
  // strings.TrimSpace

  /** Go's ASCII white space: tab, newline, vertical tab, form feed,
      carriage return and space. */
  predicate IsSpace(c: char) {
    c == ' ' || c == '\t' || c == '\n' || c == '\U{0B}' || c == '\U{0C}' || c == '\r'
  }

  predicate AllSpace(s: string) {
    forall k :: 0 <= k < |s| ==> IsSpace(s[k])
  }

  /** Number of white-space bytes at the front of `s`. */
  function LeadingSpace(s: string): (n: nat)
    ensures n <= |s|
    ensures AllSpace(s[..n])
    ensures n < |s| ==> !IsSpace(s[n])
  {
    if s == [] || !IsSpace(s[0]) then 0
    else
      var n := 1 + LeadingSpace(s[1..]);
      assert s[..n] == [s[0]] + s[1..][..n - 1];
      n
  }

  /** Number of white-space bytes at the back of `s`. */
  function TrailingSpace(s: string): (n: nat)
    ensures n <= |s|
    ensures AllSpace(s[|s| - n..])
    ensures n < |s| ==> !IsSpace(s[|s| - n - 1])
  {
    if s == [] || !IsSpace(s[|s| - 1]) then 0
    else
      var t := s[..|s| - 1];
      var m := TrailingSpace(t);
      var tail, tailT := s[|s| - (m + 1)..], t[|t| - m..];
      assert AllSpace(tail) by {
        forall k | 0 <= k < m + 1
          ensures IsSpace(tail[k])
        {
          if k < m {
            assert tail[k] == tailT[k];
          }
        }
      }
      m + 1
  }

  /** `strings.TrimSpace` on ASCII text: the longest slice of `s` that
      neither starts nor ends with white space, obtained by dropping white
      space only. */
  function TrimSpace(s: string): (r: string)
    ensures |r| > 0 ==> !IsSpace(r[0]) && !IsSpace(r[|r| - 1])
    ensures LeadingSpace(s) + |r| <= |s|
    ensures r == s[LeadingSpace(s)..LeadingSpace(s) + |r|]
    ensures AllSpace(s[LeadingSpace(s) + |r|..])
    ensures r == [] <==> AllSpace(s)
  {
    var i := LeadingSpace(s);
    if i == |s| then
      assert s[..i] == s;
      []
    else
      var j := |s| - TrailingSpace(s);
      assert !IsSpace(s[i]);
      s[i..j]
  }

  /** Trimming is idempotent: a trimmed value is left alone. */
  lemma TrimSpaceIdempotent(s: string)
    ensures TrimSpace(TrimSpace(s)) == TrimSpace(s)
  {
    var r := TrimSpace(s);
    if r != [] {
      assert LeadingSpace(r) == 0;
      assert TrailingSpace(r) == 0;
    }
  }

  // ---------------------------------------------------------------------------
  // strings.NewReplacer("\n", "\n\t")

  /** Every newline becomes a newline followed by a tab, so that continuation
      lines of a multi-line value are indented. */
  function ReplaceNewLine(s: string): (r: string)
    ensures |r| >= |s|
    ensures forall i :: 0 <= i < |r| && r[i] == '\n' ==> i + 1 < |r| && r[i + 1] == '\t'
    ensures '\n' !in s ==> r == s
  {
    if s == [] then []
    else
      var tail := ReplaceNewLine(s[1..]);
      if s[0] == '\n' then "\n\t" + tail else [s[0]] + tail
  }

  /** The inverse of `ReplaceNewLine`: drops the tab after every newline. */
  function RestoreNewLine(r: string): string
  {
    if r == [] then []
    else if |r| >= 2 && r[0] == '\n' && r[1] == '\t' then "\n" + RestoreNewLine(r[2..])
    else [r[0]] + RestoreNewLine(r[1..])
  }

  /** The replacement loses nothing: the original value is recovered. */
  lemma {:induction false} RestoreReplaceNewLine(s: string)
    ensures RestoreNewLine(ReplaceNewLine(s)) == s
  {
    if s != [] {
      RestoreReplaceNewLine(s[1..]);
      var tail := ReplaceNewLine(s[1..]);
      if s[0] == '\n' {
        assert ("\n\t" + tail)[2..] == tail;
      } else {
        assert ([s[0]] + tail)[1..] == tail;
      }
      assert s == [s[0]] + s[1..];
    }
  }

  // ---------------------------------------------------------------------------
  // Substring search, bytes.Cut

  /** `pat` occurs in `s` at offset `i`. */
  predicate Occurs(pat: string, s: string, i: nat) {
    i + |pat| <= |s| && s[i..i + |pat|] == pat
  }

  /** Leftmost occurrence of `pat` in `s` at or after offset `from`. */
  function FindFrom(pat: string, s: string, from: nat): (r: Option<nat>)
    requires from <= |s|
    ensures r.Some? ==> from <= r.value && Occurs(pat, s, r.value)
    ensures r.Some? ==> forall j :: from <= j < r.value ==> !Occurs(pat, s, j)
    ensures r.None? ==> forall j :: from <= j <= |s| ==> !Occurs(pat, s, j)
    decreases |s| - from
  {
    if from + |pat| > |s| then None
    else if s[from..from + |pat|] == pat then Some(from)
    else FindFrom(pat, s, from + 1)
  }

  /** Leftmost occurrence of `pat` in `s` (Go's `strings.Index`). */
  function Find(pat: string, s: string): (r: Option<nat>)
    ensures r.Some? ==> Occurs(pat, s, r.value)
    ensures r.Some? ==> forall j :: 0 <= j < r.value ==> !Occurs(pat, s, j)
    ensures r.None? <==> forall j :: 0 <= j <= |s| ==> !Occurs(pat, s, j)
  {
    FindFrom(pat, s, 0)
  }

  /** `pat` occurs somewhere in `s` (Go's `strings.Contains`). */
  predicate Contains(s: string, pat: string) {
    exists j :: 0 <= j <= |s| && Occurs(pat, s, j)
  }

  /** `bytes.Cut(s, sep)`: the text before and after the first `sep`, and
      whether there was one; without one, `before` is all of `s`. */
  datatype Cut = Cut(before: string, after: string, found: bool)

  function CutAt(s: string, sep: string): (c: Cut)
    ensures c.found ==> s == c.before + sep + c.after
    ensures c.found ==> forall j :: 0 <= j < |c.before| ==> !Occurs(sep, s, j)
    ensures !c.found ==> c.before == s && c.after == [] && !Contains(s, sep)
  {
    match Find(sep, s)
    case Some(i) =>
      assert s == s[..i] + s[i..i + |sep|] + s[i + |sep|..];
      Cut(s[..i], s[i + |sep|..], true)
    case None => Cut(s, [], false)
  }

  // ---------------------------------------------------------------------------
  // bufio.ScanLines, strings.Join(_, "\n")

  /** A token of `bufio.ScanLines` loses one trailing carriage return. */
  function DropCR(line: string): (r: string)
    ensures r == line || line == r + "\r"
    ensures '\n' !in line ==> '\n' !in r
  {
    if |line| > 0 && line[|line| - 1] == '\r' then line[..|line| - 1] else line
  }

  /** One step of `bufio.ScanLines` over the rest of the data: the token up
      to the first newline (or all remaining data at end of input) and what
      follows the newline. */
  function NextLine(s: string): (r: (string, string))
    requires s != []
    ensures |r.1| < |s|
    ensures '\n' !in r.0
  {
    match Find("\n", s)
    case Some(i) =>
      NoNewLineBefore(s, i);
      (DropCR(s[..i]), s[i + 1..])
    case None =>
      NoNewLineBefore(s, |s|);
      assert s[..|s|] == s;
      (DropCR(s), [])
  }

  lemma NoNewLineBefore(s: string, i: nat)
    requires i <= |s|
    requires forall j :: 0 <= j < i ==> !Occurs("\n", s, j)
    ensures '\n' !in s[..i]
  {
    forall j | 0 <= j < i
      ensures s[j] != '\n'
    {
      assert !Occurs("\n", s, j);
      assert s[j..j + 1] == [s[j]];
    }
  }

  /** The tokens a `bufio.Scanner` with `ScanLines` yields for `s`: the
      newline-separated lines, with no empty token after a final newline. */
  function ScanLines(s: string): (lines: seq<string>)
    ensures forall i :: 0 <= i < |lines| ==> '\n' !in lines[i]
    decreases |s|
  {
    if s == [] then []
    else
      var (token, rest) := NextLine(s);
      [token] + ScanLines(rest)
  }

  /** A character absent from the text is absent from every line scanned
      from it. */
  lemma {:induction false} ScanLinesWithout(s: string, c: char)
    requires c !in s
    ensures forall i :: 0 <= i < |ScanLines(s)| ==> c !in ScanLines(s)[i]
    decreases |s|
  {
    if s != [] {
      var (token, rest) := NextLine(s);
      match Find("\n", s) {
        case Some(i) =>
          assert token == DropCR(s[..i]) && rest == s[i + 1..];
          assert c !in s[..i] && c !in rest;
          assert c !in token;
        case None =>
          assert token == DropCR(s) && rest == [];
          assert c !in token;
      }
      ScanLinesWithout(rest, c);
      assert ScanLines(s) == [token] + ScanLines(rest);
      forall j | 0 <= j < |ScanLines(s)|
        ensures c !in ScanLines(s)[j]
      {
        if j > 0 {
          assert ScanLines(s)[j] == ScanLines(rest)[j - 1];
        }
      }
    }
  }

  /** `strings.Join(parts, "\n")`. */
  function Join(parts: seq<string>): string
  {
    if |parts| == 0 then []
    else if |parts| == 1 then parts[0]
    else parts[0] + "\n" + Join(parts[1..])
  }

  lemma {:induction false} JoinSnoc(parts: seq<string>, last: string)
    ensures Join(parts + [last]) == if parts == [] then last else Join(parts) + "\n" + last
  {
    if |parts| > 1 {
      assert (parts + [last])[1..] == parts[1..] + [last];
      JoinSnoc(parts[1..], last);
    } else if |parts| == 1 {
      assert (parts + [last])[1..] == [last];
    }
  }

  /** A join ends with its last part. */
  lemma {:induction false} JoinEndsWithLast(parts: seq<string>)
    requires parts != []
    ensures var j, last := Join(parts), parts[|parts| - 1];
      |last| <= |j| && j[|j| - |last|..] == last
  {
    var n := |parts|;
    assert parts == parts[..n - 1] + [parts[n - 1]];
    JoinSnoc(parts[..n - 1], parts[n - 1]);
  }

  /** The parts with `extra` appended to the last one. */
  function GlueLast(parts: seq<string>, extra: string): (glued: seq<string>)
    requires parts != []
    ensures |glued| == |parts|
    ensures forall i :: 0 <= i < |parts| - 1 ==> glued[i] == parts[i]
    ensures glued[|parts| - 1] == parts[|parts| - 1] + extra
  {
    parts[..|parts| - 1] + [parts[|parts| - 1] + extra]
  }

  /** Text appended after a join lands on its last part. */
  lemma {:induction false} JoinAppendLast(parts: seq<string>, extra: string)
    requires parts != []
    ensures Join(GlueLast(parts, extra)) == Join(parts) + extra
  {
    var n := |parts|;
    var init, last := parts[..n - 1], parts[n - 1];
    assert parts == init + [last];
    assert GlueLast(parts, extra) == init + [last + extra];
    JoinSnoc(init, last);
    JoinSnoc(init, last + extra);
    if init != [] {
      assert Join(init) + "\n" + (last + extra) == (Join(init) + "\n" + last) + extra;
    }
  }

  /** A line that scanning returns unchanged: no newline inside and no
      carriage return at its end. */
  predicate PlainLine(line: string) {
    '\n' !in line && (|line| > 0 ==> line[|line| - 1] != '\r')
  }

  lemma FindNewLine(line: string, rest: string)
    requires '\n' !in line
    ensures Find("\n", line + "\n" + rest) == Some(|line|)
  {
    var s := line + "\n" + rest;
    assert Occurs("\n", s, |line|);
    forall j | 0 <= j < |line|
      ensures !Occurs("\n", s, j)
    {
      assert s[j..j + 1] == [line[j]];
    }
  }

  lemma FindNoNewLine(line: string)
    requires '\n' !in line
    ensures Find("\n", line) == None
  {
    forall j | 0 <= j <= |line|
      ensures !Occurs("\n", line, j)
    {
      if j + 1 <= |line| {
        assert line[j..j + 1] == [line[j]];
      }
    }
  }

  /** Scanning undoes joining: lines joined by single newlines scan back to
      the same lines, provided none is empty at the end. */
  lemma {:induction false} ScanLinesJoin(lines: seq<string>)
    requires forall i :: 0 <= i < |lines| ==> PlainLine(lines[i])
    requires |lines| > 0 ==> lines[|lines| - 1] != []
    ensures ScanLines(Join(lines)) == lines
  {
    if |lines| == 1 {
      FindNoNewLine(lines[0]);
    } else if |lines| > 1 {
      var rest := Join(lines[1..]);
      var s := lines[0] + "\n" + rest;
      assert Join(lines) == s;
      FindNewLine(lines[0], rest);
      assert s[..|lines[0]|] == lines[0];
      assert s[|lines[0]| + 1..] == rest;
      assert NextLine(s) == (lines[0], rest);
      ScanLinesJoin(lines[1..]);
      assert lines == [lines[0]] + lines[1..];
    }
  }

  /** Text without newlines appended to the last of a list of plain lines
      scans back as part of that last line. */
  lemma {:induction false} ScanLinesJoinGlued(lines: seq<string>, extra: string)
    requires lines != [] && forall i :: 0 <= i < |lines| ==> PlainLine(lines[i])
    requires lines[|lines| - 1] != [] && PlainLine(extra)
    ensures ScanLines(Join(GlueLast(lines, extra))) == GlueLast(lines, extra)
  {
    var glued := GlueLast(lines, extra);
    var n := |lines|;
    assert PlainLine(glued[n - 1]);
    ScanLinesJoin(glued);
  }

  /** One scanning step on text whose first newline is at `i`. */
  lemma {:induction false} ScanLinesStep(s: string, i: nat)
    requires i < |s| && Find("\n", s) == Some(i)
    requires '\r' !in s[..i]
    ensures s[i] == '\n'
    ensures ScanLines(s) == [s[..i]] + ScanLines(s[i + 1..])
  {
    assert s[i..i + 1] == "\n";
    var line := s[..i];
    assert |line| > 0 ==> line[|line| - 1] in line;
    assert DropCR(line) == line;
    assert NextLine(s) == (line, s[i + 1..]);
  }

  /** Text with no newline and no carriage return scans to itself. */
  lemma {:induction false} ScanLinesSingle(s: string)
    requires s != [] && Find("\n", s).None? && '\r' !in s
    ensures '\n' !in s
    ensures ScanLines(s) == [s]
  {
    NoNewLineBefore(s, |s|);
    assert s[..|s|] == s;
  }

  /** Cutting `s` around the newline at `i`, and where its last byte sits. */
  lemma {:induction false} SplitAround(s: string, i: nat)
    requires i < |s| && s[i] == '\n'
    ensures s == s[..i] + "\n" + s[i + 1..]
    ensures i + 1 < |s| ==> s[|s| - 1] == s[i + 1..][|s| - i - 2]
    ensures i + 1 < |s| && s[|s| - 1] == '\n' ==>
      s[..|s| - 1] == s[..i] + "\n" + s[i + 1..][..|s| - i - 2]
    ensures i + 1 == |s| ==> s[..|s| - 1] == s[..i]
  {
  }

  /** Joining undoes scanning on text without carriage returns, up to the one
      final newline that scanning does not report as an empty line. */
  lemma {:induction false} JoinScanLines(s: string)
    requires '\r' !in s
    ensures Join(ScanLines(s)) == if |s| > 0 && s[|s| - 1] == '\n' then s[..|s| - 1] else s
    decreases |s|
  {
    if s != [] {
      var found := Find("\n", s);
      if found.None? {
        ScanLinesSingle(s);
      } else {
        var i := found.value;
        var line, rest := s[..i], s[i + 1..];
        ScanLinesStep(s, i);
        JoinScanLines(rest);
        SplitAround(s, i);
        if rest != [] {
          var tail := ScanLines(rest);
          assert Join([line] + tail) == line + "\n" + Join(tail);
        }
      }
    }
  }
}

=== FILE: wrappers.dfy ===
/** Optional values and results with an error, as the Go code uses `nil`
    pointers and `(value, error)` pairs. */
module Wrappers {

  datatype Option<+T> = None | Some(value: T)

  datatype Result<+R, +E> = Success(value: R) | Failure(error: E)
}
